=== FILE: README.md ===
# ezderm-reporter core, modelled in Dafny

ezderm-reporter automates two jobs against the EZDERM practice-management
system.

- The reporter (`main.py`) downloads a signed-off-appointments CSV. It reads
  the count of three providers from it and computes a daily, weekly or
  monthly reporting period. A command-line gate decides on which days a
  report runs.
- The recovery system (`recovery_system.py`) downloads a recovery CSV. It
  parses the CSV past an eight-row summary block and a header row, and posts
  every record that has a phone number to the GoHighLevel CRM.

Both jobs share helpers from `ezderm_common.py`:

- loading credentials from the environment;
- waiting for the downloaded CSV;
- the guard on outgoing e-mail;
- the subject and diagnostics of an error notification.

The model keeps the decisions these programs make and leaves out the
browser, SMTP, HTTP and the filesystem:

- The environment is a map.
- The CSV is a sequence of rows of cells, as `csv.reader` would yield them.
- Every poll of the download directory is answered by an oracle.
- Every CRM POST is answered by an oracle.
- What the browser yields when probed for diagnostics is a value.

The recovery parser fails on a file with fewer than nine rows: the eight
`next()` calls for the summary block and the one for the header each need a
row.

Python exceptions become the `Err` case of `Outcome.Result`, each with its
cause. Dates are proleptic Gregorian dates numbered by ordinal, as in
Python's `datetime`.

Modules:

- `Outcome`: `Option`, `Result` and the exceptions.
- `Text`: `str.strip`, `startswith`, `in`, `split(':')[-1]`, `int()` and
  decimal printing.
- `Calendar`: dates, `date - timedelta`, `strftime`, and `get_report_period`.
- `Schedule`: the command-line gate of `main.py`.
- `Providers`: the provider-count pass of `main.py`.
- `Common`: `ezderm_common.py`.
- `Recovery`: `recovery_system.py`.

## Model

| member | source | states |
|---|---|---|
| Text.Strip | recovery_system.py:94 | the stripped cell neither starts nor ends with whitespace and is no longer than the cell |
| Text.StripTrims | recovery_system.py:106-111 | `strip()` removes exactly the leading whitespace run and a trailing whitespace run, and keeps the infix between them |
| Text.StripEmpty | recovery_system.py:115 | a cell strips to the empty string exactly when it is all whitespace, so such a phone counts as missing |
| Text.StripIdempotent | main.py:153 | stripping twice is stripping once |
| Text.StripLeadingSpace | main.py:158 | a leading whitespace character never survives `strip()` |
| Text.AfterLast | main.py:158 | `split(":")[-1]` is a colon-free suffix of the cell, preceded by a colon unless it is the whole cell |
| Text.AfterLastOfJoin | main.py:158 | after `a + ":" + b` with a colon-free `b`, the text after the last colon is `b` |
| Text.ParseInt | main.py:159 | `int()` succeeds exactly on an optionally signed run of decimal digits, and is non-negative without a minus sign |
| Text.ParseSignedNumeral | main.py:159 | `int()` of a numeral with sign `""`, `"+"` or `"-"` and any leading zeros is its magnitude, negated exactly under `-` |
| Text.ParseShowNat | main.py:159 | `int(str(n)) == n` for every non-negative `n` |
| Text.ZeroPadValue | main.py:48 | a zero-padded numeral reads back as the number |
| Calendar.Weekday | main.py:248 | `weekday()` lies in 0..6 |
| Calendar.WeekdayAnchor | main.py:247 | weekday 0 is a real Monday: 2024-01-01 has weekday 0 |
| Calendar.WeekdayPrevDay | main.py:247 | the day before a date has the previous weekday, Sunday (6) before Monday (0) |
| Calendar.PrevDay | main.py:58 | one day back from any date after 0001-01-01 is a valid date whose ordinal is one smaller |
| Calendar.SubDays | main.py:52 | `d - timedelta(days=n)` succeeds exactly when the ordinal of `d` exceeds `n`, lowers the ordinal by `n`, and otherwise raises `OverflowError` |
| Calendar.OrdinalInjective | main.py:52 | distinct valid dates have distinct ordinals |
| Calendar.IsoRoundTrip | main.py:48 | the `%Y-%m-%d` text of a date parses back to that date |
| Calendar.IsoInjective | main.py:53 | two dates print the same `%Y-%m-%d` text only if they are equal |
| Calendar.DailyPeriod | main.py:46-48 | the daily period names today, and its e-mail text is `Daily report for` followed by that period |
| Calendar.WeeklyPeriod | main.py:49-54 | the weekly period is `start to end`: `end` is today and `start` is exactly six days earlier; it fails exactly when that reaches before 0001-01-01 |
| Calendar.MonthlyPeriod | main.py:55-59 | the monthly period is the calendar month before today's month (December of the previous year in January); it fails only in January of the year 1 |
| Calendar.LastDayOfPreviousMonth | main.py:57-58 | one day before the first of a month is the last day of the previous month, with its length from the leap rule |
| Calendar.GetReportPeriod | main.py:36-61 | dispatches on the three kinds and raises `ValueError` carrying the unknown kind otherwise |
| Schedule.KindOf | main.py:232-234 | an argument is accepted exactly when it is `daily`, `weekly` or `monthly`, and it selects the kind of that name |
| Schedule.SelectReport | main.py:225-230 | the first argument is lower-cased before the check; without arguments the daily report is selected |
| Schedule.UpperCaseArgumentAccepted | main.py:226 | the upper-cased and the lower-case spellings of a kind name select that kind |
| Schedule.Launcher | main.py:223-284 | an invalid argument is rejected; a valid one starts the report exactly when the schedule gate holds, and is skipped otherwise |
| Schedule.NoArgumentRunsDailyOnWeekdays | main.py:246-253 | with no argument the daily report runs exactly Monday to Friday |
| Schedule.DailyRunNamesPeriodDay | main.py:166-167 | a daily run is gated on a weekday, and its period names the date of the second clock read, which is the gate's date exactly when both reads fall on the same day |
| Schedule.WeeklyRunCoversMondayToSunday | main.py:166-167 | a weekly run is gated on a Sunday; when its period is read within the following week it never overflows, and its start's weekday counts the days between the two clock reads, so it starts on a Monday exactly when both reads fall on that Sunday |
| Schedule.MonthlyRunCoversMonthEndingYesterday | main.py:166-167 | a monthly run is gated on the first of a month; when its period is read within the following four weeks it reports the month that ended the day before the gate |
| Providers.Initial | main.py:141-145 | the counters are exactly the three providers, each at 0 |
| Providers.CountProviders | main.py:141-163 | after the loop the counters are still keyed by exactly the three providers |
| Providers.LastMatchWins | main.py:150-161 | a provider's final count is the value of the last row that reports a parsable count for it |
| Providers.UnmatchedStaysZero | main.py:141-163 | a provider that no row reports a count for stays at 0 |
| Providers.SilentRowChangesNothing | main.py:151-163 | a row that is empty, has an empty first cell, names no provider or has no parsable count changes no counter |
| Providers.SummaryLineReports | main.py:153-160 | the row `"<provider>: <n>"` reports `n` for that provider |
| Providers.SummaryLineSilentForOthers | main.py:154-155 | that row reports nothing for the other two providers |
| Providers.SingleSummaryLine | main.py:141-163 | a report whose only row is `"<provider>: <n>"` sets that provider to `n` and leaves the others at 0 |
| Common.LoadCredentials | ezderm_common.py:50-94 | raises exactly when the PMS username or password is unset or empty; passes the optional keys through; defaults `ADMIN_EMAIL` only when it is unset |
| Common.LoadCredentialsReadsOnlyItsKeys | ezderm_common.py:73-92 | environments that agree on the seven credential variables load the same credentials |
| Common.NewestIndex | ezderm_common.py:260 | `max(files, key=getmtime)` picks a file with the greatest modification time, the first one on a tie |
| Common.WaitForCsvDownload | ezderm_common.py:251-274 | the result is found exactly when some poll within the budget of `ceil(timeout / 2)` polls sees a file, and it is the newest file of the first such poll; otherwise `FileNotFoundError` after sleeping at least the timeout and less than one more interval |
| Common.SendEmail | ezderm_common.py:347-360 | a message is sent exactly when credentials exist and hold a non-empty sender address and password; it is from that address |
| Common.ErrorSubject | ezderm_common.py:456-457 | every error subject starts with `EZDERM Automation Error - ` and ends with the project code `P2P-2025-001-A` |
| Common.ErrorSubjectRoundTrip | ezderm_common.py:456-457 | the context can be read back from the subject; the context and its ` - ` appear exactly when the context is non-empty, and an empty context gives just the prefix and the project code |
| Common.ErrorSubjectInjective | ezderm_common.py:456-457 | distinct contexts give distinct subjects |
| Common.SubjectContextOnlyReadsSubjects | ezderm_common.py:456-457 | a text the decoder reads a context from is exactly the subject built for that context, so the fixed prefix, the ` - ` after a non-empty context and the project code are all pinned |
| Common.PageSnippet | ezderm_common.py:441 | the snippet is a prefix of the page source of at most 1000 characters, and all of it when the page is shorter |
| Common.Gather | ezderm_common.py:434-453 | the URL and the page snippet are probed independently, and a probe that raises leaves only its own entry empty; the snippet is the first 1000 characters of the page source |
| Common.NotifyError | ezderm_common.py:420-495 | a notification is sent exactly when credentials exist, the admin address is non-empty, and `send_email` has its sender; it goes to the admin address with exactly the subject built for the context, the gathered diagnostics, and `/tmp/error.png` attached exactly when the screenshot was saved |
| Common.UnsetAdminGetsDefault | ezderm_common.py:89 | with `ADMIN_EMAIL` unset, notifications go to the default admin address |
| Common.EmptyAdminSilencesNotifications | ezderm_common.py:89 | an `ADMIN_EMAIL` set to the empty string is kept, and silences error notifications |
| Recovery.Step | recovery_system.py:98-119 | a blank row changes nothing, a row with an empty phone adds one skip, and any other row adds its record in front |
| Recovery.ParseDataRows | recovery_system.py:92-123 | every kept record has a non-empty phone, and records plus skips never outnumber the rows |
| Recovery.ParseRecoveryCsv | recovery_system.py:75-127 | raises `StopIteration` exactly when the file has fewer than nine rows; otherwise it parses the rows after the header |
| Recovery.ParseIsPipeline | recovery_system.py:92-123 | the loop equals a pipeline: cut at the first totals row, drop blank rows, build records, keep those with a phone; the skip count is the number of empty phones |
| Recovery.RecordsPlusSkippedCoverRows | recovery_system.py:92-123 | every non-blank data row before the totals row is either a record or a skip, exactly once |
| Recovery.RecordsFollowRows | recovery_system.py:119 | the records keep the order of their rows |
| Recovery.PhoneRowKept | recovery_system.py:104-119 | a non-blank row with a phone, before any totals row, yields a record |
| Recovery.SummaryAndHeaderIgnored | recovery_system.py:84-88 | the contents of the eight summary rows and the header never matter |
| Recovery.HeaderIgnored | recovery_system.py:88 | replacing the header row changes nothing |
| Recovery.StopsAtTotals | recovery_system.py:94-96 | nothing at or after the first `Total:` row contributes |
| Recovery.BlankRowInvisible | recovery_system.py:99-100 | a blank row before the totals row is neither a record nor a skip |
| Recovery.BlankRowNotTotals | recovery_system.py:94-100 | a blank row never ends the data |
| Recovery.ExtraColumnsIgnored | recovery_system.py:105-112 | columns after the sixth are ignored |
| Recovery.MissingCellIsEmpty | recovery_system.py:105-112 | a missing trailing cell reads as an empty one |
| Recovery.ThreeRowExample | recovery_system.py:56-127 | eight summary rows and a header, then two rows with a phone, one without, and a totals row give two records and one skip |
| Recovery.SuccessesAmong | recovery_system.py:187-198 | the number of successful posts never exceeds the number of posts |
| Recovery.AllSucceededIff | recovery_system.py:187-192 | every post succeeded exactly when the success count equals the number of posts |
| Recovery.NoneSucceededIff | recovery_system.py:280-281 | no post succeeded exactly when the success count is 0 |
| Recovery.PostToGhl | recovery_system.py:129-203 | without an API key or location id nothing is posted and every record fails; otherwise every record is posted once and counted as a success on status 200 or 201 and as a failure otherwise |
| Recovery.RunRecovery | recovery_system.py:205-302 | exits 0 exactly when credentials load, the download succeeds and the file has at least nine rows; posts only when there are records, and its tally is that of `post_to_ghl_api`; on failure after credentials load, sends the notification `send_error_notification` builds for the `Recovery System Execution` context |

## Left out

- The browser: Chrome start-up, login, navigation, clicks and
  `safe_click`. Their only effect the model keeps is success, or an
  exception with or without a started browser (`Recovery.Download`).
- Network and mail transport: SMTP, MIME, the HTTP client, and the CRM and
  Zapier payloads. Each POST is an oracle answer, and an e-mail is the
  `Common.Email` value handed to the server.
- The HTML bodies of e-mails and all console logging. They are text only and
  change no decision.
- The filesystem: `cleanup_downloaded_files`, `close_driver_safely`, the
  screenshot write, `glob` and `getmtime`. The directory listing is an
  oracle, and a modification time is an integer rather than a float.
- CSV tokenising (`csv.reader`). Rows arrive already split into cells.
- Time zones. `datetime.now(cst)` is the local calendar date passed in.
- Schedule.WeeklyRunCoversMondayToSunday: the period date is read
  separately from the gate's date (main.py:239 and main.py:166), after the
  browser work and the download wait. A run gated on a Sunday that crosses
  midnight before the second read reports a Tuesday-to-Monday window. The
  lemma states the window's weekday for a second read up to six days after
  the gate, not a Monday start in general.
- Schedule.DailyRunNamesPeriodDay: for the same reason a daily run gated on
  a Friday that crosses midnight reports Saturday's date.
- Schedule.MonthlyRunCoversMonthEndingYesterday: states the reported month
  only for a second clock read less than four weeks after the gate.
- Text.ParseInt: accepts only an optional sign followed by ASCII digits.
  Python's `int()` also accepts underscores between digits and non-ASCII
  decimal digits, which a provider summary line does not contain. It
  accepts a numeral of any length, while Python since 3.11 raises
  `ValueError` on a numeral longer than `sys.get_int_max_str_digits()`
  (4300 digits by default).
- Calendar.YearText: pads every year to four digits. `%Y` for years below
  1000 depends on the platform's `strftime`.
- Schedule.Lower: lower-cases `A`..`Z` and KELVIN SIGN only. Every other
  character keeps its case, lower-cases outside ASCII, or (U+0130) becomes
  `i` followed by a combining dot that stays in the string, so it can never
  spell a kind name.
- `run_report_generation` beyond the provider pass and the period. Its
  missing-variable branch refers to `email_address` and `email_password`,
  which are never defined. Its final handler refers to `credentials`, which
  is unbound when `load_credentials` raised. The Zapier call and its payload
  are I/O.
- The import of `safe_click`. `main.py` imports it from `ezderm_common.py`,
  which does not define it, so as written `main.py` stops with an
  `ImportError` before any of its code runs. The model describes what its
  functions compute once that import is fixed.
- The `except IndexError` branch of the recovery parser cannot be reached,
  because every cell access is guarded by a length test.
- The progress logging of `wait_for_csv_download` and `post_to_ghl_api`.
- Common.WaitForCsvDownload: models the timeout as an integer number of
  seconds.
- Recovery.RunRecovery: models the download as its outcome, not as a call
  to `Common.WaitForCsvDownload`.

=== FILE: calendar.dfy ===
/** Proleptic Gregorian dates as Python's `datetime` module handles them, and
    the report-period calculator of main.py built on them.

    A date is numbered by its ordinal, the day count from 0001-01-01 (day 1),
    exactly as `date.toordinal()` does; subtracting a `timedelta` of whole
    days moves the ordinal and fails below the year 1.
 */
module Calendar {
  import opened Outcome
  import opened Text

  /** `datetime.MINYEAR` and `datetime.MAXYEAR`. */
  const MinYear := 1
  const MaxYear := 9999

  datatype Date = Date(year: int, month: int, day: int)

  predicate IsLeapYear(y: int) {
    y % 4 == 0 && (y % 100 != 0 || y % 400 == 0)
  }

  function DaysInMonth(y: int, m: int): (n: int)
    requires 1 <= m <= 12
    ensures 28 <= n <= 31
  {
    if m == 2 then (if IsLeapYear(y) then 29 else 28)
    else if m == 4 || m == 6 || m == 9 || m == 11 then 30
    else 31
  }

  function DaysInYear(y: int): int {
    if IsLeapYear(y) then 366 else 365
  }

  /** A date `datetime.date` accepts. */
  predicate Valid(d: Date) {
    && MinYear <= d.year <= MaxYear
    && 1 <= d.month <= 12
    && 1 <= d.day <= DaysInMonth(d.year, d.month)
  }

  /** The number of days in the years before `y`, by the closed formula of
      Python's `_days_before_year`. */
  function DaysBeforeYear(y: int): int
    requires y >= 1
  {
    var p := y - 1;
    p * 365 + p / 4 - p / 100 + p / 400
  }

  /** The number of days in the months of year `y` before month `m`, by the
      cumulative table of Python's `_days_before_month`. */
  function DaysBeforeMonth(y: int, m: int): int
    requires 1 <= m <= 12
  {
    [0, 31, 59, 90, 120, 151, 181, 212, 243, 273, 304, 334][m - 1]
      + (if m > 2 && IsLeapYear(y) then 1 else 0)
  }

  /** `date.toordinal()`: 0001-01-01 is day 1. */
  function Ordinal(d: Date): int
    requires Valid(d)
  {
    DaysBeforeYear(d.year) + DaysBeforeMonth(d.year, d.month) + d.day
  }

  /** `date.weekday()`: Monday is 0 and Sunday is 6. */
  function Weekday(d: Date): (w: int)
    requires Valid(d)
    ensures 0 <= w < 7
  {
    (Ordinal(d) + 6) % 7
  }

  /** The first day of the calendar, the only date that has no predecessor. */
  const Epoch := Date(MinYear, 1, 1)

  // ---------------------------------------------------------------------
  // Day arithmetic
  // ---------------------------------------------------------------------

  /** Each counter of the leap rule moves by one exactly when the year it
      passes is a multiple of its divisor. */
  lemma DivStep4(p: int)
    requires p >= 0
    ensures (p + 1) / 4 - p / 4 == (if (p + 1) % 4 == 0 then 1 else 0)
  {
  }

  lemma DivStep100(p: int)
    requires p >= 0
    ensures (p + 1) / 100 - p / 100 == (if (p + 1) % 100 == 0 then 1 else 0)
  {
  }

  lemma DivStep400(p: int)
    requires p >= 0
    ensures (p + 1) / 400 - p / 400 == (if (p + 1) % 400 == 0 then 1 else 0)
  {
  }

  /** Consecutive values of the closed formula differ by the year's length. */
  lemma YearLength(y: int)
    requires y >= 1
    ensures DaysBeforeYear(y + 1) == DaysBeforeYear(y) + DaysInYear(y)
  {
    var p := y - 1;
    DivStep4(p);
    DivStep100(p);
    DivStep400(p);
  }

  /** Consecutive rows of the month table differ by the month's length. */
  lemma MonthLength(y: int, m: int)
    requires 1 <= m < 12
    ensures DaysBeforeMonth(y, m + 1) == DaysBeforeMonth(y, m) + DaysInMonth(y, m)
  {
  }

  /** The last row of the month table plus December fills the year. */
  lemma DecemberEndsYear(y: int)
    ensures DaysBeforeMonth(y, 12) + DaysInMonth(y, 12) == DaysInYear(y)
  {
  }

  /** The date one day earlier, for any date other than the first one. */
  function PrevDay(d: Date): (r: Date)
    requires Valid(d) && d != Epoch
    ensures Valid(r) && Ordinal(r) == Ordinal(d) - 1
  {
    if d.day > 1 then Date(d.year, d.month, d.day - 1)
    else if d.month > 1 then
      MonthLength(d.year, d.month - 1);
      Date(d.year, d.month - 1, DaysInMonth(d.year, d.month - 1))
    else
      YearLength(d.year - 1);
      DecemberEndsYear(d.year - 1);
      Date(d.year - 1, 12, 31)
  }

  /** Every date has a positive ordinal, and only the first date has
      ordinal 1. */
  lemma OrdinalPositive(d: Date)
    requires Valid(d)
    ensures Ordinal(d) >= 1
    ensures Ordinal(d) == 1 <==> d == Epoch
  {
    var p := d.year - 1;
    assert p / 100 <= p / 4;
  }

  /** Weekday 0 is a real Monday: 2024-01-01 was one. */
  lemma WeekdayAnchor()
    ensures Weekday(Date(2024, 1, 1)) == 0
  {
  }

  /** The day before a date falls on the previous weekday, Sunday before
      Monday. */
  lemma WeekdayPrevDay(d: Date)
    requires Valid(d) && d != Epoch
    ensures Weekday(PrevDay(d)) == (Weekday(d) + 6) % 7
  {
    var o := Ordinal(d);
    assert Weekday(PrevDay(d)) == (o - 1 + 6) % 7;
    WeekStep(o);
  }

  lemma WeekStep(o: int)
    ensures (o - 1 + 6) % 7 == ((o + 6) % 7 + 6) % 7
  {
  }

  /** `d - timedelta(days=n)`: fails with `OverflowError` when the result
      would fall before 0001-01-01, and otherwise is the date whose ordinal
      is `n` smaller. */
  function SubDays(d: Date, n: nat): (r: Result<Date>)
    requires Valid(d)
    ensures r.Ok? <==> Ordinal(d) > n
    ensures r.Ok? ==> Valid(r.value) && Ordinal(r.value) == Ordinal(d) - n
    ensures r.Err? ==> r.error == DateOutOfRange
    decreases n
  {
    OrdinalPositive(d);
    if n == 0 then Ok(d)
    else if d == Epoch then Err(DateOutOfRange)
    else SubDays(PrevDay(d), n - 1)
  }

  /** The years' running day counts grow with the year. */
  lemma {:induction false} DaysBeforeYearMonotone(y: int, z: int)
    requires 1 <= y <= z
    ensures DaysBeforeYear(y) + (z - y) * 365 <= DaysBeforeYear(z)
    decreases z - y
  {
    if y < z {
      YearLength(y);
      DaysBeforeYearMonotone(y + 1, z);
    }
  }

  /** The months' running day counts grow with the month. */
  lemma {:induction false} DaysBeforeMonthMonotone(y: int, m: int, n: int)
    requires 1 <= m < n <= 12
    ensures DaysBeforeMonth(y, m) + DaysInMonth(y, m) <= DaysBeforeMonth(y, n)
    decreases n - m
  {
    MonthLength(y, m);
    if m + 1 < n {
      DaysBeforeMonthMonotone(y, m + 1, n);
    }
  }

  /** A date's ordinal lies inside its year's span of ordinals. */
  lemma OrdinalWithinYear(d: Date)
    requires Valid(d)
    ensures DaysBeforeYear(d.year) < Ordinal(d) <= DaysBeforeYear(d.year + 1)
  {
    YearLength(d.year);
    DecemberEndsYear(d.year);
    if d.month < 12 {
      DaysBeforeMonthMonotone(d.year, d.month, 12);
    }
  }

  /** Distinct dates have distinct ordinals: an ordinal names one date. */
  lemma OrdinalInjective(a: Date, b: Date)
    requires Valid(a) && Valid(b) && Ordinal(a) == Ordinal(b)
    ensures a == b
  {
    OrdinalWithinYear(a);
    OrdinalWithinYear(b);
    if a.year < b.year {
      DaysBeforeYearMonotone(a.year + 1, b.year);
      assert false;
    } else if b.year < a.year {
      DaysBeforeYearMonotone(b.year + 1, a.year);
      assert false;
    } else if a.month < b.month {
      DaysBeforeMonthMonotone(a.year, a.month, b.month);
      assert false;
    } else if b.month < a.month {
      DaysBeforeMonthMonotone(a.year, b.month, a.month);
      assert false;
    }
  }

  // ---------------------------------------------------------------------
  // strftime
  // ---------------------------------------------------------------------

  /** The English month names `%B` prints. */
  const MonthNames: seq<string> := [
    "January", "February", "March", "April", "May", "June",
    "July", "August", "September", "October", "November", "December"
  ]

  function MonthName(m: int): string
    requires 1 <= m <= 12
  {
    MonthNames[m - 1]
  }

  /** `%Y`: the year as four digits. */
  function YearText(y: nat): string {
    ZeroPad(y, 4)
  }

  /** `strftime("%Y-%m-%d")`. */
  function Iso(d: Date): (s: string)
    requires Valid(d)
    ensures |s| == 10
  {
    Pow10Values();
    ZeroPadLength(d.year, 4);
    ZeroPadLength(d.month, 2);
    ZeroPadLength(d.day, 2);
    YearText(d.year) + "-" + ZeroPad(d.month, 2) + "-" + ZeroPad(d.day, 2)
  }

  lemma Pow10Values()
    ensures Pow10(2) == 100 && Pow10(4) == 10000
  {
    assert Pow10(1) == 10;
    assert Pow10(3) == 1000;
  }

  /** Reads a `YYYY-MM-DD` string back into a valid date. */
  function ParseIso(s: string): (r: Option<Date>)
    ensures r.Some? ==> Valid(r.value)
  {
    if |s| == 10 && s[4] == '-' && s[7] == '-'
       && AllDigits(s[..4]) && AllDigits(s[5..7]) && AllDigits(s[8..])
    then
      var d := Date(DigitsValue(s[..4]), DigitsValue(s[5..7]), DigitsValue(s[8..]));
      if Valid(d) then Some(d) else None
    else None
  }

  /** The `YYYY-MM-DD` text names exactly the date it was printed from. */
  lemma IsoRoundTrip(d: Date)
    requires Valid(d)
    ensures ParseIso(Iso(d)) == Some(d)
  {
    Pow10Values();
    var y := YearText(d.year);
    var m := ZeroPad(d.month, 2);
    var dd := ZeroPad(d.day, 2);
    ZeroPadLength(d.year, 4);
    ZeroPadLength(d.month, 2);
    ZeroPadLength(d.day, 2);
    var s := Iso(d);
    assert s == y + "-" + m + "-" + dd;
    assert s[..4] == y;
    assert s[5..7] == m;
    assert s[8..] == dd;
    ZeroPadValue(d.year, 4);
    ZeroPadValue(d.month, 2);
    ZeroPadValue(d.day, 2);
  }

  /** Two valid dates print the same `YYYY-MM-DD` text only if equal. */
  lemma IsoInjective(a: Date, b: Date)
    requires Valid(a) && Valid(b) && Iso(a) == Iso(b)
    ensures a == b
  {
    IsoRoundTrip(a);
    IsoRoundTrip(b);
  }

  // ---------------------------------------------------------------------
  // get_report_period
  // ---------------------------------------------------------------------

  /** The pair `(period_string, period_text_for_email)`. */
  datatype Period = Period(period: string, text: string)

  /** The calendar month immediately before month `m` of year `y`, as
      (year, month). */
  function PreviousMonth(y: int, m: int): (int, int) {
    if m == 1 then (y - 1, 12) else (y, m - 1)
  }

  /** The weekly period text `"<start> to <end>"` names `end` and a start date
      exactly six days earlier. */
  predicate WeeklyWindow(period: string, end: Date)
    requires Valid(end)
  {
    && |period| == 24
    && period[10..14] == " to "
    && ParseIso(period[14..]) == Some(end)
    && ParseIso(period[..10]).Some?
    && Ordinal(ParseIso(period[..10]).value) == Ordinal(end) - 6
  }

  /** The daily period: today's date. */
  function DailyPeriod(today: Date): (r: Period)
    requires Valid(today)
    ensures ParseIso(r.period) == Some(today)
    ensures r.text == "Daily report for " + r.period
  {
    IsoRoundTrip(today);
    Period(Iso(today), "Daily report for " + Iso(today))
  }

  /** The weekly period: the seven days ending today. */
  function WeeklyPeriod(today: Date): (r: Result<Period>)
    requires Valid(today)
    ensures r.Ok? <==> Ordinal(today) > 6
    ensures r.Ok? ==> WeeklyWindow(r.value.period, today)
    ensures r.Ok? ==> r.value.text == "Weekly report for " + r.value.period
    ensures r.Err? ==> r.error == DateOutOfRange
  {
    match SubDays(today, 6)
    case Err(e) => Err(e)
    case Ok(start) =>
      var period := Iso(start) + " to " + Iso(today);
      IsoRoundTrip(start);
      IsoRoundTrip(today);
      assert period[..10] == Iso(start) && period[14..] == Iso(today);
      Ok(Period(period, "Weekly report for " + period))
  }

  /** The monthly period: the calendar month before today's. */
  function MonthlyPeriod(today: Date): (r: Result<Period>)
    requires Valid(today)
    ensures r.Ok? <==> today.year > MinYear || today.month > 1
    ensures r.Ok? ==>
              var ym := PreviousMonth(today.year, today.month);
              ym.0 >= MinYear && 1 <= ym.1 <= 12 && r.value == MonthPeriod(ym.0, ym.1)
    ensures r.Err? ==> r.error == DateOutOfRange
  {
    var first := Date(today.year, today.month, 1);
    FirstOfMonth(today);
    match SubDays(first, 1)
    case Err(e) => Err(e)
    case Ok(last) =>
      LastDayOfPreviousMonth(today);
      Ok(MonthPeriod(last.year, last.month))
  }

  /** The first of today's month is a date, and it has a predecessor unless
      it is 0001-01-01. */
  lemma FirstOfMonth(today: Date)
    requires Valid(today)
    ensures Valid(Date(today.year, today.month, 1))
    ensures Ordinal(Date(today.year, today.month, 1)) > 1 <==> today.year > MinYear || today.month > 1
  {
    OrdinalPositive(Date(today.year, today.month, 1));
  }

  /** The `("%Y-%B", "Monthly report for %B %Y")` pair of month `m` of
      year `y`. */
  function MonthPeriod(y: nat, m: int): Period
    requires 1 <= m <= 12
  {
    Period(YearText(y) + "-" + MonthName(m), "Monthly report for " + MonthName(m) + " " + YearText(y))
  }

  /** main.py's `get_report_period` for the local calendar date `today`:
      `ValueError` for an unknown kind, `OverflowError` when the period would
      reach before 0001-01-01. */
  function GetReportPeriod(kind: string, today: Date): (r: Result<Period>)
    requires Valid(today)
    ensures kind != "daily" && kind != "weekly" && kind != "monthly" ==>
              r == Err(InvalidReportType(kind))
    ensures kind == "daily" ==> r == Ok(DailyPeriod(today))
    ensures kind == "weekly" ==> r == WeeklyPeriod(today)
    ensures kind == "monthly" ==> r == MonthlyPeriod(today)
  {
    if kind == "daily" then Ok(DailyPeriod(today))
    else if kind == "weekly" then WeeklyPeriod(today)
    else if kind == "monthly" then MonthlyPeriod(today)
    else Err(InvalidReportType(kind))
  }

  /** Stepping back one day from the first of the month lands on the last
      day of the previous calendar month (December of the year before in
      January), whose length follows the leap rule. */
  lemma LastDayOfPreviousMonth(today: Date)
    requires Valid(today) && (today.year > MinYear || today.month > 1)
    ensures var ym := PreviousMonth(today.year, today.month);
            && ym.0 >= MinYear && 1 <= ym.1 <= 12
            && SubDays(Date(today.year, today.month, 1), 1) == Ok(Date(ym.0, ym.1, DaysInMonth(ym.0, ym.1)))
  {
    var first := Date(today.year, today.month, 1);
    var (py, pm) := PreviousMonth(today.year, today.month);
    var last := Date(py, pm, DaysInMonth(py, pm));
    var r := SubDays(first, 1);
    OrdinalPositive(first);
    assert first != Epoch;
    if today.month > 1 {
      MonthLength(today.year, today.month - 1);
    } else {
      YearLength(today.year - 1);
      DecemberEndsYear(today.year - 1);
    }
    assert Valid(last) && Ordinal(last) == Ordinal(first) - 1;
    OrdinalInjective(r.value, last);
  }
}

=== FILE: common.dfy ===
/** The pure parts of ezderm_common.py: credential loading from the
    environment, the CSV download waiter, the e-mail gate of `send_email`,
    and the subject and diagnostics of `send_error_notification`.

    The environment, the download directory and the browser are inputs: the
    environment is a map, each poll of the download directory is answered by
    an oracle, and what the browser yields when probed for diagnostics is a
    value.
 */
module Common {
  import opened Outcome
  import opened Text

  // ---------------------------------------------------------------------
  // load_credentials
  // ---------------------------------------------------------------------

  /** The process environment after `.env` has been loaded. */
  type Env = map<string, string>

  /** `os.getenv(key)`. */
  function GetEnv(env: Env, key: string): Option<string> {
    if key in env then Some(env[key]) else None
  }

  /** Python truthiness of an optional string: present and non-empty. */
  predicate Present(o: Option<string>) {
    o.Some? && o.value != ""
  }

  /** Where error notifications go when `ADMIN_EMAIL` is unset. */
  const DefaultAdminEmail := "gio@gervainlabs.com"

  /** The environment variables `load_credentials` reads. */
  const CredentialKeys: set<string> := {
    "EZDERM_USERNAME", "EZDERM_PASSWORD", "EMAIL_ADDRESS", "EMAIL_PASSWORD",
    "ADMIN_EMAIL", "GHL_API_KEY", "GHL_LOCATION_ID"
  }

  /** The credential dictionary. */
  datatype Credentials = Credentials(
    ezdermUsername: string,
    ezdermPassword: string,
    emailAddress: Option<string>,
    emailPassword: Option<string>,
    adminEmail: string,
    ghlApiKey: Option<string>,
    ghlLocationId: Option<string>)

  /** `load_credentials()`: raises when the PMS username or password is unset
      or empty; otherwise passes the optional keys through and defaults only
      an unset (not an empty) `ADMIN_EMAIL`. */
  function LoadCredentials(env: Env): (r: Result<Credentials>)
    ensures r.Err? <==> !Present(GetEnv(env, "EZDERM_USERNAME")) || !Present(GetEnv(env, "EZDERM_PASSWORD"))
    ensures r.Err? ==> r.error == MissingCredentials
    ensures r.Ok? ==>
              && Some(r.value.ezdermUsername) == GetEnv(env, "EZDERM_USERNAME")
              && Some(r.value.ezdermPassword) == GetEnv(env, "EZDERM_PASSWORD")
              && r.value.ezdermUsername != "" && r.value.ezdermPassword != ""
    ensures r.Ok? ==>
              && r.value.emailAddress == GetEnv(env, "EMAIL_ADDRESS")
              && r.value.emailPassword == GetEnv(env, "EMAIL_PASSWORD")
              && r.value.ghlApiKey == GetEnv(env, "GHL_API_KEY")
              && r.value.ghlLocationId == GetEnv(env, "GHL_LOCATION_ID")
    ensures r.Ok? ==> r.value.adminEmail == (if "ADMIN_EMAIL" in env then env["ADMIN_EMAIL"] else DefaultAdminEmail)
  {
    var username := GetEnv(env, "EZDERM_USERNAME");
    var password := GetEnv(env, "EZDERM_PASSWORD");
    if !Present(username) || !Present(password) then Err(MissingCredentials)
    else
      Ok(Credentials(
        username.value,
        password.value,
        GetEnv(env, "EMAIL_ADDRESS"),
        GetEnv(env, "EMAIL_PASSWORD"),
        GetEnv(env, "ADMIN_EMAIL").GetOr(DefaultAdminEmail),
        GetEnv(env, "GHL_API_KEY"),
        GetEnv(env, "GHL_LOCATION_ID")))
  }

  /** Only the seven credential variables matter: environments that agree on
      them load the same credentials. */
  lemma LoadCredentialsReadsOnlyItsKeys(env1: Env, env2: Env)
    requires forall k :: k in CredentialKeys ==> GetEnv(env1, k) == GetEnv(env2, k)
    ensures LoadCredentials(env1) == LoadCredentials(env2)
  {
    assert GetEnv(env1, "EZDERM_USERNAME") == GetEnv(env2, "EZDERM_USERNAME");
    assert GetEnv(env1, "EZDERM_PASSWORD") == GetEnv(env2, "EZDERM_PASSWORD");
    assert GetEnv(env1, "EMAIL_ADDRESS") == GetEnv(env2, "EMAIL_ADDRESS");
    assert GetEnv(env1, "EMAIL_PASSWORD") == GetEnv(env2, "EMAIL_PASSWORD");
    assert GetEnv(env1, "ADMIN_EMAIL") == GetEnv(env2, "ADMIN_EMAIL");
    assert GetEnv(env1, "GHL_API_KEY") == GetEnv(env2, "GHL_API_KEY");
    assert GetEnv(env1, "GHL_LOCATION_ID") == GetEnv(env2, "GHL_LOCATION_ID");
  }

  // ---------------------------------------------------------------------
  // wait_for_csv_download
  // ---------------------------------------------------------------------

  /** A file matching the glob pattern, with its modification time. */
  datatype FileEntry = FileEntry(path: string, mtime: int)

  /** Seconds slept between polls. */
  const PollInterval := 2

  /** How many polls fit before `elapsed` reaches the timeout: the waiter
      polls at elapsed = 0, 2, 4, ... while elapsed < timeout. */
  function PollBudget(timeout: int): nat {
    if timeout <= 0 then 0 else (timeout + 1) / 2
  }

  /** The index `max(files, key=mtime)` picks: a file with the greatest
      modification time, the first such one when several tie. */
  function NewestIndex(files: seq<FileEntry>): (k: nat)
    requires |files| > 0
    ensures k < |files|
    ensures forall j :: 0 <= j < |files| ==> files[j].mtime <= files[k].mtime
    ensures forall j :: 0 <= j < k ==> files[j].mtime < files[k].mtime
  {
    if |files| == 1 then 0
    else
      var k := NewestIndex(files[..|files| - 1]);
      if files[|files| - 1].mtime > files[k].mtime then |files| - 1 else k
  }

  /** `wait_for_csv_download(download_dir, timeout, pattern)`, where
      `listing(k)` is what the glob of the `k`-th poll (from 0) returns.
      `polls` is the number of polls made and `waited` the seconds slept. */
  method WaitForCsvDownload(timeout: int, listing: nat -> seq<FileEntry>)
    returns (r: Result<string>, polls: nat, waited: nat)
    ensures 1 <= polls <= PollBudget(timeout) || (polls == 0 && r.Err?)
    ensures r.Ok? <==> exists k :: 0 <= k < PollBudget(timeout) && |listing(k)| > 0
    ensures r.Ok? ==>
              && (forall k :: 0 <= k < polls - 1 ==> |listing(k)| == 0)
              && |listing(polls - 1)| > 0
              && r.value == listing(polls - 1)[NewestIndex(listing(polls - 1))].path
              && waited == PollInterval * (polls - 1)
    ensures r.Err? ==>
              && r.error == CsvNotFound(timeout)
              && polls == PollBudget(timeout)
              && waited == PollInterval * polls
              && (timeout > 0 ==> timeout <= waited < timeout + PollInterval)
  {
    var elapsed := 0;
    polls := 0;
    while elapsed < timeout
      invariant elapsed == PollInterval * polls
      invariant polls <= PollBudget(timeout)
      invariant timeout > 0 ==> elapsed < timeout + PollInterval
      invariant forall k :: 0 <= k < polls ==> |listing(k)| == 0
      decreases timeout - elapsed
    {
      var files := listing(polls);
      polls := polls + 1;
      if |files| > 0 {
        return Ok(files[NewestIndex(files)].path), polls, elapsed;
      }
      elapsed := elapsed + PollInterval;
    }
    return Err(CsvNotFound(timeout)), polls, elapsed;
  }

  // ---------------------------------------------------------------------
  // send_email and send_error_notification
  // ---------------------------------------------------------------------

  /** What the browser yields when probed for diagnostics; `None` marks a
      probe that raised. */
  datatype DriverProbe = DriverProbe(currentUrl: Option<string>, pageSource: Option<string>, screenshotSaved: bool)

  /** The diagnostics an error notification carries. */
  datatype Diagnostics = Diagnostics(currentUrl: Option<string>, pageSnippet: Option<string>)

  /** A message handed to the SMTP server. */
  datatype Email = Email(sender: string, to: string, subject: string, diagnostics: Diagnostics, attachment: Option<string>)

  /** Where the error screenshot is saved. */
  const ScreenshotPath := "/tmp/error.png"

  /** The project code every error subject ends with. */
  const ProjectCode := "P2P-2025-001-A"

  const SubjectPrefix := "EZDERM Automation Error - "

  /** `send_email(...)`: nothing is sent unless the sender address and
      password are both configured and non-empty. */
  function SendEmail(creds: Option<Credentials>, subject: string, to: string, diagnostics: Diagnostics,
                     attachment: Option<string>): (r: Option<Email>)
    ensures r.Some? <==> creds.Some? && Present(creds.value.emailAddress) && Present(creds.value.emailPassword)
    ensures r.Some? ==> r.value == Email(creds.value.emailAddress.value, to, subject, diagnostics, attachment)
  {
    if creds.None? || !Present(creds.value.emailAddress) || !Present(creds.value.emailPassword) then None
    else Some(Email(creds.value.emailAddress.value, to, subject, diagnostics, attachment))
  }

  /** The subject of an error notification: the fixed prefix, the context
      followed by ` - ` when there is one, and the project code. */
  function ErrorSubject(context: string): (s: string)
    ensures StartsWith(s, SubjectPrefix)
    ensures |s| >= |SubjectPrefix| + |ProjectCode| && s[|s| - |ProjectCode|..] == ProjectCode
  {
    SubjectPrefix + (if context != "" then context + " - " else "") + ProjectCode
  }

  /** Recovers the context from an error subject; `None` for a text that
      lacks the fixed prefix, the project code, or the ` - ` before it. */
  function SubjectContext(subject: string): Option<string> {
    if |subject| < |SubjectPrefix| + |ProjectCode| then None
    else if !StartsWith(subject, SubjectPrefix) then None
    else if subject[|subject| - |ProjectCode|..] != ProjectCode then None
    else
      var middle := subject[|SubjectPrefix|..|subject| - |ProjectCode|];
      if middle == "" then Some("")
      else if |middle| > 3 && middle[|middle| - 3..] == " - " then Some(middle[..|middle| - 3])
      else None
  }

  /** The context can be read back from the subject, so distinct contexts
      give distinct subjects. */
  lemma ErrorSubjectRoundTrip(context: string)
    ensures SubjectContext(ErrorSubject(context)) == Some(context)
    ensures context == "" <==> ErrorSubject(context) == SubjectPrefix + ProjectCode
  {
    var s := ErrorSubject(context);
    var tail := if context != "" then context + " - " else "";
    assert s == SubjectPrefix + tail + ProjectCode;
    assert s[..|SubjectPrefix|] == SubjectPrefix;
    assert s[|s| - |ProjectCode|..] == ProjectCode;
    assert s[|SubjectPrefix|..|s| - |ProjectCode|] == tail;
    if context != "" {
      assert tail[..|tail| - 3] == context;
    }
  }

  /** Only subjects built by `ErrorSubject` are read back: whatever
      `SubjectContext` accepts is exactly the subject of the context it
      returns. */
  lemma SubjectContextOnlyReadsSubjects(subject: string)
    requires SubjectContext(subject).Some?
    ensures subject == ErrorSubject(SubjectContext(subject).value)
  {
    var n := |subject|;
    var middle := subject[|SubjectPrefix|..n - |ProjectCode|];
    assert subject == subject[..|SubjectPrefix|] + middle + subject[n - |ProjectCode|..];
    assert subject[..|SubjectPrefix|] == SubjectPrefix;
    assert subject[n - |ProjectCode|..] == ProjectCode;
    var c := SubjectContext(subject).value;
    if middle != "" {
      assert middle == middle[..|middle| - 3] + middle[|middle| - 3..];
      assert middle == c + " - " && c != "";
      assert subject == SubjectPrefix + (c + " - ") + ProjectCode;
    } else {
      assert c == "";
      assert subject == SubjectPrefix + ProjectCode;
      assert ErrorSubject(c) == SubjectPrefix + "" + ProjectCode;
    }
  }

  lemma ErrorSubjectInjective(c1: string, c2: string)
    requires ErrorSubject(c1) == ErrorSubject(c2)
    ensures c1 == c2
  {
    ErrorSubjectRoundTrip(c1);
    ErrorSubjectRoundTrip(c2);
  }

  /** The page-source snippet: at most the first 1000 characters. */
  function PageSnippet(source: string): (r: string)
    ensures |r| <= 1000 && |r| <= |source| && r == source[..|r|]
    ensures |source| <= 1000 ==> r == source
    ensures |source| > 1000 ==> |r| == 1000
  {
    if |source| <= 1000 then source else source[..1000]
  }

  /** The diagnostics gathered from the browser, each probe independently:
      a probe that raises leaves only its own entry empty. */
  function Gather(driver: Option<DriverProbe>): (d: Diagnostics)
    ensures driver.None? ==> d == Diagnostics(None, None)
    ensures driver.Some? ==> d.currentUrl == driver.value.currentUrl
    ensures driver.Some? && driver.value.pageSource.Some? ==>
              d.pageSnippet == Some(PageSnippet(driver.value.pageSource.value))
    ensures driver.Some? && driver.value.pageSource.None? ==> d.pageSnippet.None?
  {
    match driver
    case None => Diagnostics(None, None)
    case Some(p) =>
      Diagnostics(p.currentUrl, if p.pageSource.Some? then Some(PageSnippet(p.pageSource.value)) else None)
  }

  /** `send_error_notification(error, driver, context, credentials)`: nothing
      is sent without credentials or with an empty admin address; otherwise
      the message goes to the admin address through `send_email`, with the
      screenshot attached when one was saved. */
  function NotifyError(creds: Option<Credentials>, context: string, driver: Option<DriverProbe>): (r: Option<Email>)
    ensures r.Some? <==>
              && creds.Some? && creds.value.adminEmail != ""
              && Present(creds.value.emailAddress) && Present(creds.value.emailPassword)
    ensures r.Some? ==>
              && r.value.to == creds.value.adminEmail
              && r.value.sender == creds.value.emailAddress.value
              && r.value.subject == ErrorSubject(context)
              && SubjectContext(r.value.subject) == Some(context)
              && r.value.diagnostics == Gather(driver)
              && r.value.attachment == (if driver.Some? && driver.value.screenshotSaved then Some(ScreenshotPath) else None)
  {
    if creds.None? || creds.value.adminEmail == "" then None
    else
      ErrorSubjectRoundTrip(context);
      var attachment := if driver.Some? && driver.value.screenshotSaved then Some(ScreenshotPath) else None;
      SendEmail(creds, ErrorSubject(context), creds.value.adminEmail, Gather(driver), attachment)
  }

  /** With the sender configured and `ADMIN_EMAIL` unset, error
      notifications go to the default admin address. */
  lemma UnsetAdminGetsDefault(env: Env, context: string, driver: Option<DriverProbe>)
    requires LoadCredentials(env).Ok? && "ADMIN_EMAIL" !in env
    requires Present(GetEnv(env, "EMAIL_ADDRESS")) && Present(GetEnv(env, "EMAIL_PASSWORD"))
    ensures NotifyError(Some(LoadCredentials(env).value), context, driver).Some?
    ensures NotifyError(Some(LoadCredentials(env).value), context, driver).value.to == DefaultAdminEmail
  {
  }

  /** An `ADMIN_EMAIL` set to the empty string is not replaced by the
      default, and silences error notifications. */
  lemma EmptyAdminSilencesNotifications(env: Env, context: string, driver: Option<DriverProbe>)
    requires LoadCredentials(env).Ok? && "ADMIN_EMAIL" in env && env["ADMIN_EMAIL"] == ""
    ensures NotifyError(Some(LoadCredentials(env).value), context, driver).None?
  {
  }
}

=== FILE: outcome.dfy ===
/** Failure-carrying values shared by every module of the model.

    The Python code signals failure by raising; each exception the modelled
    core can raise becomes one constructor of `Exception`, and an operation
    that may raise returns a `Result`.
 */
module Outcome {

  /** A value that may be absent: Python's `None` versus a present value. */
  datatype Option<+T> = None | Some(value: T) {

    /** The present value, or `default` when absent. */
    function GetOr(default: T): T {
      match this
      case Some(v) => v
      case None => default
    }
  }

  /** The exceptions the modelled core raises. */
  datatype Exception =
    | /** `next(reader)` on an exhausted CSV reader */
      StopIteration
    | /** `ValueError("Invalid report type: ...")` from the period calculator */
      InvalidReportType(kind: string)
    | /** `OverflowError` from subtracting days below the year 1 */
      DateOutOfRange
    | /** `ValueError` raised when the PMS username or password is missing */
      MissingCredentials
    | /** `FileNotFoundError` raised when no CSV appeared within the timeout */
      CsvNotFound(timeoutSeconds: int)

  /** Either a returned value or a raised exception. */
  datatype Result<+T> = Ok(value: T) | Err(error: Exception)
}

=== FILE: providers.dfy ===
/** The provider-count pass of main.py's `run_report_generation`: every row
    of the downloaded report is probed for one of three fixed provider names,
    and a matching row's count (the integer after its last colon) overwrites
    that provider's counter.
 */
module Providers {
  import opened Outcome
  import opened Text

  /** The hard-coded provider names (main.py visits them in this order,
      but each provider's update depends only on the row, so order does not
      matter). */
  const NameSet: set<string> := {"Kayela Asplund, NP", "Samantha Conklin, NP", "Jonathan Hayward, PA"}

  /** Provider name to count. */
  type Counts = map<string, int>

  /** Every provider starts at 0. */
  function Initial(): (c: Counts)
    ensures c.Keys == NameSet
    ensures forall p :: p in c ==> c[p] == 0
  {
    map p | p in NameSet :: 0
  }

  /** The count a row reports for provider `p`, if it reports one: `None`
      when the row is empty, its first cell is the empty string, the
      stripped first cell does not contain `p`, or the text after the last
      colon is not an integer (`run_report_generation` logs and skips that
      case). */
  function RowValue(row: seq<string>, p: string): Option<int> {
    if |row| == 0 || row[0] == "" then None
    else
      var cell := Strip(row[0]);
      if Contains(cell, p) then ParseInt(Strip(AfterLast(cell, ':'))) else None
  }

  /** One iteration of the row loop: each provider the row reports a count
      for takes that count, the others keep theirs. */
  function ApplyRow(c: Counts, row: seq<string>): (r: Counts)
    requires c.Keys == NameSet
    ensures r.Keys == NameSet
  {
    map p | p in NameSet :: RowValue(row, p).GetOr(c[p])
  }

  /** The counts after the loop has visited every row of `rows` in order. */
  function CountProviders(rows: seq<seq<string>>): (c: Counts)
    ensures c.Keys == NameSet
  {
    if |rows| == 0 then Initial()
    else ApplyRow(CountProviders(rows[..|rows| - 1]), rows[|rows| - 1])
  }

  /** The last row that reports a count for `p` decides `p`'s count: if row
      `i` reports `v` and no later row reports anything for `p`, the result
      is `v`. */
  lemma {:induction false} LastMatchWins(rows: seq<seq<string>>, p: string, i: int)
    requires p in NameSet
    requires 0 <= i < |rows| && RowValue(rows[i], p).Some?
    requires forall j :: i < j < |rows| ==> RowValue(rows[j], p).None?
    ensures CountProviders(rows)[p] == RowValue(rows[i], p).value
  {
    var init := rows[..|rows| - 1];
    if i < |rows| - 1 {
      LastMatchWins(init, p, i);
    }
  }

  /** A provider no row reports a count for keeps its initial 0. */
  lemma {:induction false} UnmatchedStaysZero(rows: seq<seq<string>>, p: string)
    requires p in NameSet
    requires forall j :: 0 <= j < |rows| ==> RowValue(rows[j], p).None?
    ensures CountProviders(rows)[p] == 0
  {
    if |rows| > 0 {
      UnmatchedStaysZero(rows[..|rows| - 1], p);
    }
  }

  /** Rows that report nothing for any provider (empty rows, rows whose
      first cell is empty, unparsable counts, other text) change nothing. */
  lemma SilentRowChangesNothing(rows: seq<seq<string>>, row: seq<string>)
    requires forall p :: p in NameSet ==> RowValue(row, p).None?
    ensures CountProviders(rows + [row]) == CountProviders(rows)
  {
    assert (rows + [row])[..|rows|] == rows;
  }

  /** The first cell of the summary line `"<provider>: <n>"`. */
  function SummaryCell(p: string, n: nat): string {
    p + ": " + ShowNat(n)
  }

  /** Stripping a summary cell leaves it as is, and the text after its last
      colon is a blank followed by the digits. */
  lemma SummaryCellParts(p: string, n: nat)
    requires p in NameSet
    ensures Strip(SummaryCell(p, n)) == SummaryCell(p, n)
    ensures AfterLast(SummaryCell(p, n), ':') == " " + ShowNat(n)
  {
    var digits := ShowNat(n);
    var cell := SummaryCell(p, n);
    assert cell[0] == p[0];
    assert cell[|cell| - 1] == digits[|digits| - 1];
    StripUnchanged(cell);
    assert ':' !in " " + digits by {
      assert forall k :: 0 <= k < |digits| ==> IsDigit(digits[k]);
    }
    assert cell == p + [':'] + (" " + digits);
    AfterLastOfJoin(p, ':', " " + digits);
  }

  /** The stripped summary cell names its provider. */
  lemma SummaryCellNamesProvider(p: string, n: nat)
    requires p in NameSet
    ensures Contains(Strip(SummaryCell(p, n)), p)
  {
    var cell := SummaryCell(p, n);
    SummaryCellParts(p, n);
    assert cell[..|p|] == p;
    assert OccursAt(cell, p, 0);
  }

  /** The stripped text after the summary cell's last colon is the numeral. */
  lemma SummaryCellCountText(p: string, n: nat)
    requires p in NameSet
    ensures Strip(AfterLast(Strip(SummaryCell(p, n)), ':')) == ShowNat(n)
  {
    SummaryCellParts(p, n);
    StripLeadingSpace(' ', ShowNat(n));
    StripUnchanged(ShowNat(n));
  }

  /** The summary line `"<provider>: <n>"` reports `n` for that provider. */
  lemma SummaryLineReports(p: string, n: nat)
    requires p in NameSet
    ensures RowValue([SummaryCell(p, n)], p) == Some(n)
  {
    SummaryCellNamesProvider(p, n);
    SummaryCellCountText(p, n);
    ParseShowNat(n);
  }

  /** A summary line for one provider reports nothing for the other two:
      no other provider's initial occurs in it. */
  lemma SummaryLineSilentForOthers(p: string, q: string, n: nat)
    requires p in NameSet && q in NameSet && p != q
    ensures RowValue([SummaryCell(p, n)], q) == None
  {
    var cell := SummaryCell(p, n);
    var digits := ShowNat(n);
    SummaryCellParts(p, n);
    InitialNotInOtherName(p, q);
    forall i | 0 <= i < |cell|
      ensures cell[i] != q[0]
    {
      if i < |p| + 2 {
        assert cell[i] == (p + ": ")[i];
        assert (p + ": ")[i] != q[0];
      } else {
        assert cell[i] == digits[i - |p| - 2];
      }
    }
    NotContained(cell, q);
  }

  /** A report whose only row is the summary line `"<provider>: <n>"` counts
      `n` for that provider and leaves the other two at 0; in particular
      `"Kayela Asplund, NP: 7"` gives that provider 7. */
  lemma SingleSummaryLine(p: string, n: nat)
    requires p in NameSet
    ensures CountProviders([[SummaryCell(p, n)]]) == Initial()[p := n]
  {
    var rows := [[SummaryCell(p, n)]];
    assert rows[..0] == [];
    SummaryLineReports(p, n);
    forall q | q in NameSet && q != p
      ensures RowValue(rows[0], q) == None
    {
      SummaryLineSilentForOthers(p, q, n);
    }
  }

  /** No provider name contains the initial of another one. */
  lemma InitialNotInOtherName(p: string, q: string)
    requires p in NameSet && q in NameSet && p != q
    ensures forall i :: 0 <= i < |p + ": "| ==> (p + ": ")[i] != q[0]
  {
    var k, s, j := "Kayela Asplund, NP", "Samantha Conklin, NP", "Jonathan Hayward, PA";
    assert forall i :: 0 <= i < |k| ==> k[i] != 'S' && k[i] != 'J';
    assert forall i :: 0 <= i < |s| ==> s[i] != 'K' && s[i] != 'J';
    assert forall i :: 0 <= i < |j| ==> j[i] != 'K' && j[i] != 'S';
  }

  lemma NotContained(s: string, sub: string)
    requires |sub| > 0
    requires forall i :: 0 <= i < |s| ==> s[i] != sub[0]
    ensures !Contains(s, sub)
  {
    forall i | 0 <= i <= |s| - |sub|
      ensures !OccursAt(s, sub, i)
    {
      assert s[i..i + |sub|][0] == s[i];
    }
  }
}

=== FILE: recovery.dfy ===
/** recovery_system.py: the offset-based parser of the exported appointment
    report, the tally of the per-record CRM posts, and the decision of `main`
    on what is posted and how the process exits.

    The CSV arrives already split into rows of cells (Python's `csv.reader`
    is not modelled); each CRM post is answered by an oracle.
 */
module Recovery {
  import opened Outcome
  import opened Text
  import opened Common

  /** Rows before the header row: the report's summary block. */
  const SummaryRows := 8

  /** The first data row: the summary rows and the header row precede it. */
  const FirstDataRow := SummaryRows + 1

  /** A first cell starting with this ends the data. */
  const TotalsMarker := "Total:"

  /** The fixed six-field record built from a data row. */
  datatype Appointment = Appointment(
    firstName: string,
    lastName: string,
    phone: string,
    dateOfBirth: string,
    appointmentDate: string,
    appointmentStatus: string)

  /** What the parser returns: the valid records, and how many rows it
      dropped for an empty phone (`parse_recovery_csv` only prints that count). */
  datatype Parsed = Parsed(records: seq<Appointment>, skippedEmptyPhone: nat)

  /** `row[i].strip() if len(row) > i else ''`. */
  function Cell(row: seq<string>, i: nat): string {
    if i < |row| then Strip(row[i]) else ""
  }

  /** The record built from columns 0..5 of a row. */
  function ToAppointment(row: seq<string>): Appointment {
    Appointment(Cell(row, 0), Cell(row, 1), Cell(row, 2), Cell(row, 3), Cell(row, 4), Cell(row, 5))
  }

  /** `row and row[0].strip().startswith("Total:")`. */
  predicate IsTotalsRow(row: seq<string>) {
    |row| > 0 && StartsWith(Strip(row[0]), TotalsMarker)
  }

  /** `not row or not any(row)`: no cell is a non-empty string (a cell of
      blanks is non-empty and so does not make a row blank). */
  predicate IsBlankRow(row: seq<string>) {
    forall i :: 0 <= i < |row| ==> row[i] == ""
  }

  /** One iteration of the loop over a data row that is not the totals row:
      a blank row is skipped, a row with an empty phone is counted, any
      other row is kept (in front of the records of the rows after it). */
  function Step(row: seq<string>, rest: Parsed): (p: Parsed)
    ensures IsBlankRow(row) ==> p == rest
    ensures !IsBlankRow(row) && Cell(row, 2) == "" ==> p == rest.(skippedEmptyPhone := rest.skippedEmptyPhone + 1)
    ensures !IsBlankRow(row) && Cell(row, 2) != "" ==> p.records == [ToAppointment(row)] + rest.records
    ensures !IsBlankRow(row) && Cell(row, 2) != "" ==> p.skippedEmptyPhone == rest.skippedEmptyPhone
  {
    if IsBlankRow(row) then rest
    else
      var a := ToAppointment(row);
      if a.phone == "" then Parsed(rest.records, rest.skippedEmptyPhone + 1)
      else Parsed([a] + rest.records, rest.skippedEmptyPhone)
  }

  /** The loop over the data rows: stop at the totals row, skip blank rows,
      count rows with an empty phone, keep the others in order. */
  function ParseDataRows(rows: seq<seq<string>>): (p: Parsed)
    ensures forall k :: 0 <= k < |p.records| ==> p.records[k].phone != ""
    ensures |p.records| + p.skippedEmptyPhone <= |rows|
  {
    if |rows| == 0 || IsTotalsRow(rows[0]) then Parsed([], 0)
    else Step(rows[0], ParseDataRows(rows[1..]))
  }

  /** `parse_recovery_csv`: `next()` past the eight summary rows and the
      header raises `StopIteration` on a shorter file; otherwise the data
      rows after the header are parsed. */
  function ParseRecoveryCsv(rows: seq<seq<string>>): (r: Result<Parsed>)
    ensures r.Err? <==> |rows| < FirstDataRow
    ensures r.Err? ==> r.error == StopIteration
    ensures r.Ok? ==> forall k :: 0 <= k < |r.value.records| ==> r.value.records[k].phone != ""
    ensures r.Ok? ==> |r.value.records| + r.value.skippedEmptyPhone <= |rows| - FirstDataRow
  {
    if |rows| < FirstDataRow then Err(StopIteration)
    else Ok(ParseDataRows(rows[FirstDataRow..]))
  }

  // ---------------------------------------------------------------------
  // The parser as a pipeline of separate steps
  // ---------------------------------------------------------------------

  /** The rows before the first totals row (all rows when there is none). */
  function BeforeTotals(rows: seq<seq<string>>): (r: seq<seq<string>>)
    ensures |r| <= |rows| && r == rows[..|r|]
    ensures forall k :: 0 <= k < |r| ==> !IsTotalsRow(r[k])
    ensures |r| < |rows| ==> IsTotalsRow(rows[|r|])
  {
    if |rows| == 0 || IsTotalsRow(rows[0]) then []
    else [rows[0]] + BeforeTotals(rows[1..])
  }

  /** The rows that are not blank, in order. */
  function NonBlank(rows: seq<seq<string>>): (r: seq<seq<string>>)
    ensures |r| <= |rows|
    ensures forall k :: 0 <= k < |r| ==> !IsBlankRow(r[k])
  {
    if |rows| == 0 then []
    else if IsBlankRow(rows[0]) then NonBlank(rows[1..])
    else [rows[0]] + NonBlank(rows[1..])
  }

  /** The records of the given rows, in order. */
  function Appointments(rows: seq<seq<string>>): (r: seq<Appointment>)
    ensures |r| == |rows|
  {
    if |rows| == 0 then [] else [ToAppointment(rows[0])] + Appointments(rows[1..])
  }

  /** The records with a non-empty phone, in order. */
  function WithPhone(records: seq<Appointment>): seq<Appointment> {
    if |records| == 0 then []
    else if records[0].phone == "" then WithPhone(records[1..])
    else [records[0]] + WithPhone(records[1..])
  }

  /** How many records have an empty phone. */
  function EmptyPhones(records: seq<Appointment>): nat {
    if |records| == 0 then 0
    else (if records[0].phone == "" then 1 else 0) + EmptyPhones(records[1..])
  }

  /** Every record has a phone or an empty one. */
  lemma {:induction false} PhoneSplit(records: seq<Appointment>)
    ensures |WithPhone(records)| + EmptyPhones(records) == |records|
  {
    if |records| > 0 {
      PhoneSplit(records[1..]);
    }
  }

  /** The single loop equals the pipeline: cut at the totals row, drop blank
      rows, build the records, and keep those with a phone; the skipped count
      is the number of records with an empty phone. */
  lemma {:induction false} ParseIsPipeline(rows: seq<seq<string>>)
    ensures var built := Appointments(NonBlank(BeforeTotals(rows)));
            ParseDataRows(rows) == Parsed(WithPhone(built), EmptyPhones(built))
  {
    if |rows| > 0 && !IsTotalsRow(rows[0]) {
      ParseIsPipeline(rows[1..]);
      assert BeforeTotals(rows) == [rows[0]] + BeforeTotals(rows[1..]);
      assert ([rows[0]] + BeforeTotals(rows[1..]))[1..] == BeforeTotals(rows[1..]);
      if !IsBlankRow(rows[0]) {
        var nb := NonBlank(BeforeTotals(rows));
        assert nb == [rows[0]] + NonBlank(BeforeTotals(rows[1..]));
        assert nb[1..] == NonBlank(BeforeTotals(rows[1..]));
        var built := Appointments(nb);
        assert built[1..] == Appointments(NonBlank(BeforeTotals(rows[1..])));
      }
    }
  }

  /** Every non-blank data row before the totals row is accounted for
      exactly once: as a record or in the skipped count. */
  lemma RecordsPlusSkippedCoverRows(rows: seq<seq<string>>)
    ensures var p := ParseDataRows(rows);
            |p.records| + p.skippedEmptyPhone == |NonBlank(BeforeTotals(rows))|
  {
    ParseIsPipeline(rows);
    PhoneSplit(Appointments(NonBlank(BeforeTotals(rows))));
  }

  // ---------------------------------------------------------------------
  // Properties of the parser
  // ---------------------------------------------------------------------

  /** Only the existence of the summary rows and the header matters, never
      their contents. */
  lemma SummaryAndHeaderIgnored(rows: seq<seq<string>>, other: seq<seq<string>>)
    requires |rows| >= FirstDataRow && |other| >= FirstDataRow
    requires rows[FirstDataRow..] == other[FirstDataRow..]
    ensures ParseRecoveryCsv(rows) == ParseRecoveryCsv(other)
  {
  }

  /** Replacing the header row changes nothing. */
  lemma HeaderIgnored(rows: seq<seq<string>>, header: seq<string>)
    requires |rows| >= FirstDataRow
    ensures ParseRecoveryCsv(rows[SummaryRows := header]) == ParseRecoveryCsv(rows)
  {
    SummaryAndHeaderIgnored(rows, rows[SummaryRows := header]);
  }

  /** Nothing at or after the first totals row contributes a record or a
      skip. */
  lemma {:induction false} StopsAtTotals(before: seq<seq<string>>, totals: seq<string>, after: seq<seq<string>>)
    requires forall k :: 0 <= k < |before| ==> !IsTotalsRow(before[k])
    requires IsTotalsRow(totals)
    ensures ParseDataRows(before + [totals] + after) == ParseDataRows(before)
  {
    if |before| == 0 {
      assert before + [totals] + after == [totals] + after;
    } else {
      var head, tail := before[0], before[1..];
      assert !IsTotalsRow(head);
      StopsAtTotals(tail, totals, after);
      assert before + [totals] + after == [head] + (tail + [totals] + after);
      assert before == [head] + tail;
      ParseCons(head, tail + [totals] + after);
      ParseCons(head, tail);
    }
  }

  /** A blank row before the totals row is invisible: neither a record nor a
      skip. */
  lemma {:induction false} BlankRowInvisible(before: seq<seq<string>>, blank: seq<string>, after: seq<seq<string>>)
    requires forall k :: 0 <= k < |before| ==> !IsTotalsRow(before[k])
    requires IsBlankRow(blank)
    ensures ParseDataRows(before + [blank] + after) == ParseDataRows(before + after)
  {
    if |before| == 0 {
      BlankRowNotTotals(blank);
      assert before + [blank] + after == [blank] + after;
      assert before + after == after;
      ParseCons(blank, after);
    } else {
      var head, tail := before[0], before[1..];
      assert !IsTotalsRow(head);
      BlankRowInvisible(tail, blank, after);
      assert before + [blank] + after == [head] + (tail + [blank] + after);
      assert before + after == [head] + (tail + after);
      ParseCons(head, tail + [blank] + after);
      ParseCons(head, tail + after);
    }
  }

  /** A blank row never starts the totals. */
  lemma BlankRowNotTotals(blank: seq<string>)
    requires IsBlankRow(blank)
    ensures !IsTotalsRow(blank)
  {
    if |blank| > 0 {
      assert Strip(blank[0]) == "";
    }
  }

  /** Columns beyond the sixth are ignored. */
  lemma ExtraColumnsIgnored(row: seq<string>)
    requires |row| >= 6
    ensures ToAppointment(row) == ToAppointment(row[..6])
  {
  }

  /** A missing trailing cell reads as an empty one. */
  lemma MissingCellIsEmpty(row: seq<string>)
    ensures ToAppointment(row + [""]) == ToAppointment(row)
  {
    assert Strip("") == "";
  }

  /** The records keep the order of their rows: record `k` comes from the
      `k`-th data row that is not blank and has a phone. */
  lemma {:induction false} RecordsFollowRows(rows: seq<seq<string>>)
    ensures ParseDataRows(rows).records == WithPhone(Appointments(NonBlank(BeforeTotals(rows))))
  {
    ParseIsPipeline(rows);
  }

  /** A data row that is not blank, lies before the totals row and has a
      phone yields a record. */
  lemma {:induction false} PhoneRowKept(rows: seq<seq<string>>, i: int)
    requires 0 <= i < |rows| && !IsBlankRow(rows[i]) && Cell(rows[i], 2) != ""
    requires forall k :: 0 <= k <= i ==> !IsTotalsRow(rows[k])
    ensures ToAppointment(rows[i]) in ParseDataRows(rows).records
  {
    if i > 0 {
      PhoneRowKept(rows[1..], i - 1);
    }
  }

  /** The example of a report whose eight summary rows and header row are
      followed by two rows with a phone, one without, and a totals row: two
      records, one skip. */
  lemma ThreeRowExample(preamble: seq<seq<string>>,
                        a: seq<string>, b: seq<string>, c: seq<string>, totals: seq<string>)
    requires |preamble| == FirstDataRow
    requires !IsTotalsRow(a) && !IsTotalsRow(b) && !IsTotalsRow(c) && IsTotalsRow(totals)
    requires !IsBlankRow(a) && !IsBlankRow(b) && !IsBlankRow(c)
    requires Cell(a, 2) != "" && Cell(b, 2) != "" && Cell(c, 2) == ""
    ensures ParseRecoveryCsv(preamble + [a, b, c, totals]) ==
            Ok(Parsed([ToAppointment(a), ToAppointment(b)], 1))
  {
    var data := [a, b, c, totals];
    assert (preamble + data)[FirstDataRow..] == data;
    ThreeDataRows(a, b, c, totals);
  }

  lemma ThreeDataRows(a: seq<string>, b: seq<string>, c: seq<string>, totals: seq<string>)
    requires !IsTotalsRow(a) && !IsTotalsRow(b) && !IsTotalsRow(c) && IsTotalsRow(totals)
    requires !IsBlankRow(a) && !IsBlankRow(b) && !IsBlankRow(c)
    requires Cell(a, 2) != "" && Cell(b, 2) != "" && Cell(c, 2) == ""
    ensures ParseDataRows([a, b, c, totals]) == Parsed([ToAppointment(a), ToAppointment(b)], 1)
  {
    assert ParseDataRows([totals]) == Parsed([], 0);
    ParseCons(c, [totals]);
    assert [c] + [totals] == [c, totals];
    var pc := ParseDataRows([c, totals]);
    assert pc == Parsed([], 1);
    ParseCons(b, [c, totals]);
    assert [b] + [c, totals] == [b, c, totals];
    var pb := ParseDataRows([b, c, totals]);
    assert pb.records == [ToAppointment(b)] && pb.skippedEmptyPhone == 1;
    ParseCons(a, [b, c, totals]);
    assert [a] + [b, c, totals] == [a, b, c, totals];
    var pa := ParseDataRows([a, b, c, totals]);
    assert pa.records == [ToAppointment(a), ToAppointment(b)] && pa.skippedEmptyPhone == 1;
  }

  /** Unfolds the loop once on a row that is not the totals row. */
  lemma ParseCons(row: seq<string>, rows: seq<seq<string>>)
    requires !IsTotalsRow(row)
    ensures ParseDataRows([row] + rows) == Step(row, ParseDataRows(rows))
  {
    assert ([row] + rows)[1..] == rows;
  }

  // ---------------------------------------------------------------------
  // post_to_ghl_api
  // ---------------------------------------------------------------------

  /** The outcome of one POST: an HTTP status, or a network exception. */
  datatype Response = HttpStatus(code: int) | NetworkError

  /** A POST counts as a success on status 200 or 201 only. */
  predicate Succeeded(r: Response) {
    r.HttpStatus? && (r.code == 200 || r.code == 201)
  }

  /** How many of the first `n` posts succeeded. */
  function SuccessesAmong(respond: nat -> Response, n: nat): (c: nat)
    ensures c <= n
  {
    if n == 0 then 0 else SuccessesAmong(respond, n - 1) + (if Succeeded(respond(n - 1)) then 1 else 0)
  }

  /** Every post succeeded exactly when the success count reaches the number
      of posts. */
  lemma {:induction false} AllSucceededIff(respond: nat -> Response, n: nat)
    ensures SuccessesAmong(respond, n) == n <==> forall k :: 0 <= k < n ==> Succeeded(respond(k))
  {
    if n > 0 {
      AllSucceededIff(respond, n - 1);
      if SuccessesAmong(respond, n) == n {
        assert SuccessesAmong(respond, n - 1) == n - 1;
      }
    }
  }

  /** No post succeeded exactly when the success count is zero. */
  lemma {:induction false} NoneSucceededIff(respond: nat -> Response, n: nat)
    ensures SuccessesAmong(respond, n) == 0 <==> forall k :: 0 <= k < n ==> !Succeeded(respond(k))
  {
    if n > 0 {
      NoneSucceededIff(respond, n - 1);
    }
  }

  /** The CRM is reachable only with a non-empty API key and location id. */
  predicate CrmConfigured(creds: Credentials) {
    Present(creds.ghlApiKey) && Present(creds.ghlLocationId)
  }

  /** `post_to_ghl_api(records, credentials)`, where `respond(k)` answers the
      POST of record `k`: every record is posted once, in order, and counted
      as a success or a failure; without CRM configuration nothing is posted
      and every record is a failure. */
  method PostToGhl(records: seq<Appointment>, creds: Credentials, respond: nat -> Response)
    returns (success: nat, failure: nat)
    ensures !CrmConfigured(creds) ==> success == 0 && failure == |records|
    ensures CrmConfigured(creds) ==> success + failure == |records|
    ensures CrmConfigured(creds) ==> success == SuccessesAmong(respond, |records|)
  {
    if !CrmConfigured(creds) {
      return 0, |records|;
    }
    success, failure := 0, 0;
    var index := 0;
    while index < |records|
      invariant index <= |records|
      invariant success == SuccessesAmong(respond, index)
      invariant success + failure == index
    {
      if Succeeded(respond(index)) {
        success := success + 1;
      } else {
        failure := failure + 1;
      }
      index := index + 1;
    }
  }

  // ---------------------------------------------------------------------
  // main
  // ---------------------------------------------------------------------

  /** What the browser part of `main` produced: the rows of the downloaded
      report, or an exception raised before parsing (login, navigation,
      download timeout), with the browser if it had been started. */
  datatype Download =
    | Downloaded(rows: seq<seq<string>>, driver: DriverProbe)
    | BrowserFailed(driverStarted: Option<DriverProbe>)

  /** The context `main` reports errors under. */
  const ErrorContext := "Recovery System Execution"

  /** `main()` of recovery_system.py, after credentials are loaded from
      `env`: returns the exit code, the posting tally when posting happened,
      and the error notification when one was sent. A credentials failure
      happens before `credentials` is bound, so it is reported with no
      credentials and no message can be sent. */
  method RunRecovery(env: Env, download: Download, respond: nat -> Response)
    returns (exitCode: int, tally: Option<(nat, nat)>, notice: Option<Email>)
    ensures exitCode == 0 || exitCode == 1
    ensures exitCode == 0 <==>
              LoadCredentials(env).Ok? && download.Downloaded? && |download.rows| >= FirstDataRow
    ensures LoadCredentials(env).Err? ==> notice.None?
    ensures exitCode == 1 && LoadCredentials(env).Ok? ==>
              notice == NotifyError(Some(LoadCredentials(env).value), ErrorContext,
                                    if download.Downloaded? then Some(download.driver) else download.driverStarted)
    ensures exitCode == 0 ==> notice.None?
    ensures tally.Some? <==> exitCode == 0 && |ParseRecoveryCsv(download.rows).value.records| > 0
    ensures tally.Some? ==> tally.value.0 + tally.value.1 == |ParseRecoveryCsv(download.rows).value.records|
    ensures tally.Some? ==>
              tally.value.0 == (if CrmConfigured(LoadCredentials(env).value)
                                then SuccessesAmong(respond, |ParseRecoveryCsv(download.rows).value.records|)
                                else 0)
  {
    tally, notice := None, None;
    var loaded := LoadCredentials(env);
    if loaded.Err? {
      return 1, None, NotifyError(None, ErrorContext, None);
    }
    var creds := loaded.value;
    match download
    case BrowserFailed(driver) =>
      return 1, None, NotifyError(Some(creds), ErrorContext, driver);
    case Downloaded(rows, driver) =>
      var parsed := ParseRecoveryCsv(rows);
      if parsed.Err? {
        return 1, None, NotifyError(Some(creds), ErrorContext, Some(driver));
      }
      var records := parsed.value.records;
      if |records| == 0 {
        return 0, None, None;
      }
      var success, failure := PostToGhl(records, creds, respond);
      return 0, Some((success, failure)), None;
  }
}

=== FILE: schedule.dfy ===
/** The command-line entry of main.py: the report kind is taken from the
    first argument, and a day-of-week / day-of-month gate decides whether
    the report is produced today.
 */
module Schedule {
  import opened Outcome
  import opened Calendar

  datatype ReportKind = Daily | Weekly | Monthly

  /** The name the command line and `get_report_period` use for a kind. */
  function KindName(k: ReportKind): string {
    match k
    case Daily => "daily"
    case Weekly => "weekly"
    case Monthly => "monthly"
  }

  /** `str.lower()` on one character, exact for every character whose
      lower-case form is an ASCII letter: `A`..`Z` and KELVIN SIGN (U+212A,
      which lower-cases to `k`). Every other character keeps its case,
      lower-cases outside ASCII, or (U+0130) becomes `i` followed by a
      combining dot that stays in the string, so it can never help spell a
      kind name and is kept. */
  function LowerChar(c: char): char {
    if 'A' <= c <= 'Z' then (c as int + 32) as char
    else if c == '\U{212A}' then 'k'
    else c
  }

  function Lower(s: string): (r: string)
    ensures |r| == |s| && forall i :: 0 <= i < |s| ==> r[i] == LowerChar(s[i])
  {
    if |s| == 0 then [] else [LowerChar(s[0])] + Lower(s[1..])
  }

  /** ASCII upper-casing, used to state that upper-case arguments are
      accepted. */
  function UpperAscii(s: string): (r: string)
    ensures |r| == |s|
    ensures forall i :: 0 <= i < |s| ==> r[i] == if 'a' <= s[i] <= 'z' then (s[i] as int - 32) as char else s[i]
  {
    if |s| == 0 then []
    else
      var c := s[0];
      [if 'a' <= c <= 'z' then (c as int - 32) as char else c] + UpperAscii(s[1..])
  }

  /** The kind a (lower-cased) argument names, if any. */
  function KindOf(name: string): (r: Option<ReportKind>)
    ensures r.Some? <==> name == "daily" || name == "weekly" || name == "monthly"
    ensures r.Some? ==> KindName(r.value) == name
  {
    if name == "daily" then Some(Daily)
    else if name == "weekly" then Some(Weekly)
    else if name == "monthly" then Some(Monthly)
    else None
  }

  /** The kind `sys.argv[1:]` selects: the lower-cased first argument, or
      `daily` when there is none; `None` is the invalid-argument exit. */
  function SelectReport(args: seq<string>): (r: Option<ReportKind>)
    ensures |args| == 0 ==> r == Some(Daily)
    ensures |args| > 0 ==> r == KindOf(Lower(args[0]))
  {
    if |args| > 0 then KindOf(Lower(args[0])) else Some(Daily)
  }

  /** The gate: daily runs Monday to Friday, weekly on Sunday, monthly on
      the first of the month. */
  predicate ScheduledToday(k: ReportKind, today: Date)
    requires Valid(today)
  {
    match k
    case Daily => Weekday(today) < 5
    case Weekly => Weekday(today) == 6
    case Monthly => today.day == 1
  }

  /** What `__main__` does before any browser work. */
  datatype Launch =
    | /** invalid argument: `sys.exit(1)` */
      Rejected
    | /** not scheduled today: `sys.exit(0)` without a report */
      Skipped(kind: ReportKind)
    | /** `run_report_generation(kind)` is called */
      Started(kind: ReportKind)

  /** The `__main__` decision for arguments `args` on local date `today`. */
  function Launcher(args: seq<string>, today: Date): (r: Launch)
    requires Valid(today)
    ensures r.Rejected? <==> SelectReport(args).None?
    ensures !r.Rejected? ==> Some(r.kind) == SelectReport(args)
    ensures r.Started? <==> SelectReport(args).Some? && ScheduledToday(SelectReport(args).value, today)
  {
    match SelectReport(args)
    case None => Rejected
    case Some(k) => if ScheduledToday(k, today) then Started(k) else Skipped(k)
  }

  /** The upper-cased and the lower-case spelling of a kind name select that
      kind. */
  lemma UpperCaseArgumentAccepted(k: ReportKind, rest: seq<string>)
    ensures SelectReport([UpperAscii(KindName(k))] + rest) == Some(k)
    ensures SelectReport([KindName(k)] + rest) == Some(k)
  {
    var w := KindName(k);
    KindNameLowerCase(k);
    LowerOfUpper(w);
    LowerOfLowerCase(w);
    assert ([UpperAscii(w)] + rest)[0] == UpperAscii(w);
    assert ([w] + rest)[0] == w;
  }

  lemma KindNameLowerCase(k: ReportKind)
    ensures forall i :: 0 <= i < |KindName(k)| ==> 'a' <= KindName(k)[i] <= 'z'
  {
  }

  lemma LowerOfLowerCase(w: string)
    requires forall i :: 0 <= i < |w| ==> 'a' <= w[i] <= 'z'
    ensures Lower(w) == w
  {
  }

  lemma LowerOfUpper(w: string)
    requires forall i :: 0 <= i < |w| ==> 'a' <= w[i] <= 'z'
    ensures Lower(UpperAscii(w)) == w
  {
    var u := UpperAscii(w);
    forall i | 0 <= i < |w|
      ensures Lower(u)[i] == w[i]
    {
      assert u[i] == (w[i] as int - 32) as char;
    }
  }

  /** Without an argument the daily report is selected, and it starts
      exactly on weekdays. */
  lemma NoArgumentRunsDailyOnWeekdays(today: Date)
    requires Valid(today)
    ensures Launcher([], today) == (if Weekday(today) < 5 then Started(Daily) else Skipped(Daily))
  {
  }

  // ---------------------------------------------------------------------
  // The gate and the period read the clock separately
  // ---------------------------------------------------------------------
  //
  // `__main__` reads the clock for the gate (`gateDay`); after the browser
  // work and the download wait, `run_report_generation` reads it again for
  // the period (`periodDay`). The lemmas below relate the two reads.

  /** A daily report is gated on a weekday, and its period names the date of
      the second read: the gate's date exactly when both reads fall on the
      same day. */
  lemma DailyRunNamesPeriodDay(args: seq<string>, gateDay: Date, periodDay: Date)
    requires Valid(gateDay) && Valid(periodDay)
    requires Launcher(args, gateDay) == Started(Daily)
    ensures Weekday(gateDay) < 5
    ensures GetReportPeriod("daily", periodDay).Ok?
    ensures ParseIso(GetReportPeriod("daily", periodDay).value.period) == Some(periodDay)
    ensures GetReportPeriod("daily", periodDay).value.period == Iso(gateDay) <==> periodDay == gateDay
  {
    assert ScheduledToday(Daily, gateDay);
    if GetReportPeriod("daily", periodDay).value.period == Iso(gateDay) {
      IsoInjective(periodDay, gateDay);
    }
  }

  /** A weekly report started by the gate on a Sunday never overflows when
      its period is read within the following week, and its window starts
      on the weekday that counts the days between the two reads: on the
      Monday six days before the gate's Sunday exactly when both reads fall
      on the same day, and on a Tuesday when the run crosses midnight. */
  lemma WeeklyRunCoversMondayToSunday(args: seq<string>, gateDay: Date, periodDay: Date)
    requires Valid(gateDay) && Valid(periodDay)
    requires Launcher(args, gateDay) == Started(Weekly)
    requires Ordinal(gateDay) <= Ordinal(periodDay) < Ordinal(gateDay) + 7
    ensures Weekday(gateDay) == 6
    ensures GetReportPeriod("weekly", periodDay).Ok?
    ensures var start := ParseIso(GetReportPeriod("weekly", periodDay).value.period[..10]).value;
            && Weekday(start) == Ordinal(periodDay) - Ordinal(gateDay)
            && (Weekday(start) == 0 <==> periodDay == gateDay)
  {
    assert ScheduledToday(Weekly, gateDay);
    SundayWindowStart(gateDay, periodDay);
  }

  /** The weekly window computed on a date within a week after a Sunday
      starts on the weekday that counts the days since that Sunday. */
  lemma SundayWindowStart(sunday: Date, periodDay: Date)
    requires Valid(sunday) && Valid(periodDay) && Weekday(sunday) == 6
    requires Ordinal(sunday) <= Ordinal(periodDay) < Ordinal(sunday) + 7
    ensures WeeklyPeriod(periodDay).Ok?
    ensures var start := ParseIso(WeeklyPeriod(periodDay).value.period[..10]).value;
            && Weekday(start) == Ordinal(periodDay) - Ordinal(sunday)
            && (Weekday(start) == 0 <==> periodDay == sunday)
  {
    DaysSinceSunday(sunday, periodDay);
    WeeklyWindowStart(periodDay);
    if Ordinal(periodDay) == Ordinal(sunday) {
      OrdinalInjective(periodDay, sunday);
    }
  }

  /** Within a week after a Sunday, the weekday after a date's counts the
      days since that Sunday. */
  lemma DaysSinceSunday(sunday: Date, d: Date)
    requires Valid(sunday) && Valid(d) && Weekday(sunday) == 6
    requires Ordinal(sunday) <= Ordinal(d) < Ordinal(sunday) + 7
    ensures Ordinal(d) > 6
    ensures (Weekday(d) + 1) % 7 == Ordinal(d) - Ordinal(sunday)
  {
    var g := Ordinal(sunday);
    var p := Ordinal(d);
    OrdinalPositive(sunday);
    SundayArithmetic(g);
    WeekOffset(g, p, Weekday(d), (Weekday(d) + 1) % 7);
  }

  /** Six days back is one day forward in the week: the weekly window starts
      on the weekday after the one it ends on. */
  lemma WeeklyWindowStart(periodDay: Date)
    requires Valid(periodDay) && Ordinal(periodDay) > 6
    ensures WeeklyPeriod(periodDay).Ok?
    ensures Weekday(ParseIso(WeeklyPeriod(periodDay).value.period[..10]).value) == (Weekday(periodDay) + 1) % 7
  {
    var r := WeeklyPeriod(periodDay);
    assert WeeklyWindow(r.value.period, periodDay);
    var start := ParseIso(r.value.period[..10]).value;
    WeekdaySixBack(start, periodDay);
  }

  /** A date six days before another falls on the next weekday. */
  lemma WeekdaySixBack(start: Date, end: Date)
    requires Valid(start) && Valid(end) && Ordinal(start) == Ordinal(end) - 6
    ensures Weekday(start) == (Weekday(end) + 1) % 7
  {
    SixBackOneForward(Ordinal(end));
  }

  lemma SixBackOneForward(o: int)
    ensures (o - 6 + 6) % 7 == ((o + 6) % 7 + 1) % 7
  {
  }

  /** A positive day number that falls on a Sunday is a multiple of seven,
      hence at least seven. */
  lemma SundayArithmetic(o: int)
    requires o >= 1 && (o + 6) % 7 == 6
    ensures o % 7 == 0 && o > 6
  {
  }

  /** Within a week after a multiple of seven, the weekday after a day
      number's counts the days since that multiple. */
  lemma WeekOffset(g: int, p: int, wp: int, ws: int)
    requires g % 7 == 0 && g <= p < g + 7
    requires wp == (p + 6) % 7 && ws == (wp + 1) % 7
    ensures ws == p - g
  {
  }

  /** A monthly report started by the gate on the first of a month past
      January of the year 1, with its period read within the following four
      weeks, reports the month that ended the day before the gate. */
  lemma MonthlyRunCoversMonthEndingYesterday(args: seq<string>, gateDay: Date, periodDay: Date)
    requires Valid(gateDay) && Valid(periodDay)
    requires Launcher(args, gateDay) == Started(Monthly)
    requires gateDay.year > MinYear || gateDay.month > 1
    requires Ordinal(gateDay) <= Ordinal(periodDay) < Ordinal(gateDay) + 28
    ensures gateDay.day == 1
    ensures var ym := PreviousMonth(gateDay.year, gateDay.month);
            && ym.0 >= MinYear && 1 <= ym.1 <= 12
            && SubDays(gateDay, 1) == Ok(Date(ym.0, ym.1, DaysInMonth(ym.0, ym.1)))
            && GetReportPeriod("monthly", periodDay) == Ok(MonthPeriod(ym.0, ym.1))
  {
    assert ScheduledToday(Monthly, gateDay);
    assert gateDay == Date(gateDay.year, gateDay.month, 1);
    LastDayOfPreviousMonth(gateDay);
    SameMonthWithinFourWeeks(gateDay, periodDay);
  }

  /** A date less than four weeks after the first of a month lies in that
      month. */
  lemma SameMonthWithinFourWeeks(first: Date, d: Date)
    requires Valid(first) && Valid(d) && first.day == 1
    requires Ordinal(first) <= Ordinal(d) < Ordinal(first) + 28
    ensures d.year == first.year && d.month == first.month
  {
    var same := Date(first.year, first.month, 1 + Ordinal(d) - Ordinal(first));
    assert Valid(same) && Ordinal(same) == Ordinal(d);
    OrdinalInjective(same, d);
  }
}

=== FILE: text.dfy ===
/** The handful of Python string operations the core relies on:
    `str.strip()`, `str.startswith`, the substring test `in`,
    `str.split(sep)[-1]`, `int()` on a stripped string, and decimal printing.
 */
module Text {
  import opened Outcome

  /** Python's `str.isspace()` for one character: the ASCII whitespace, the
      information separators 0x1C..0x1F, NEL, NO-BREAK SPACE and the Unicode
      space separators and line/paragraph separators. */
  predicate IsSpace(c: char) {
    || c == ' ' || c == '\t' || c == '\n' || c == '\r'
    || c == '\U{0B}' || c == '\U{0C}'
    || ('\U{1C}' <= c <= '\U{1F}')
    || c == '\U{85}' || c == '\U{A0}' || c == '\U{1680}'
    || ('\U{2000}' <= c <= '\U{200A}')
    || c == '\U{2028}' || c == '\U{2029}' || c == '\U{202F}'
    || c == '\U{205F}' || c == '\U{3000}'
  }

  /** Every character of `s` is whitespace (this includes the empty string). */
  predicate AllSpace(s: string) {
    forall i :: 0 <= i < |s| ==> IsSpace(s[i])
  }

  /** `r` is what is left of `s` after removing `lead` leading characters and
      all characters after `r`, every removed character being whitespace. */
  predicate Trims(s: string, lead: nat, r: string) {
    && lead + |r| <= |s|
    && s[lead..lead + |r|] == r
    && AllSpace(s[..lead])
    && AllSpace(s[lead + |r|..])
  }

  /** The number of whitespace characters `s` starts with
      (`LeadingSpacesSpec` states that they are whitespace and the run is
      maximal). */
  function LeadingSpaces(s: string): (k: nat)
    ensures k <= |s|
  {
    if |s| > 0 && IsSpace(s[0]) then 1 + LeadingSpaces(s[1..]) else 0
  }

  lemma {:induction false} LeadingSpacesSpec(s: string)
    ensures var k := LeadingSpaces(s);
            AllSpace(s[..k]) && (k < |s| ==> !IsSpace(s[k]))
  {
    if |s| > 0 && IsSpace(s[0]) {
      LeadingSpacesSpec(s[1..]);
      var k := LeadingSpaces(s);
      assert s[..k] == [s[0]] + s[1..][..k - 1];
    }
  }

  /** The number of whitespace characters `s` ends with. */
  function TrailingSpaces(s: string): (k: nat)
    ensures k <= |s|
  {
    if |s| > 0 && IsSpace(s[|s| - 1]) then 1 + TrailingSpaces(s[..|s| - 1]) else 0
  }

  lemma {:induction false} TrailingSpacesSpec(s: string)
    ensures var k := TrailingSpaces(s);
            AllSpace(s[|s| - k..]) && (k < |s| ==> !IsSpace(s[|s| - k - 1]))
  {
    if |s| > 0 && IsSpace(s[|s| - 1]) {
      var init := s[..|s| - 1];
      TrailingSpacesSpec(init);
      var k := TrailingSpaces(s);
      assert s[|s| - k..] == init[|init| - (k - 1)..] + [s[|s| - 1]];
    }
  }

  /** Python's `s.strip()`: drops the leading and then the trailing
      whitespace; `StripTrims` states that exactly whitespace is removed. */
  function Strip(s: string): (r: string)
    ensures |r| <= |s|
    ensures |r| > 0 ==> !IsSpace(r[0]) && !IsSpace(r[|r| - 1])
  {
    var t := s[LeadingSpaces(s)..];
    var r := t[..|t| - TrailingSpaces(t)];
    assert |r| > 0 ==> !IsSpace(r[0]) && !IsSpace(r[|r| - 1]) by {
      LeadingSpacesSpec(s);
      TrailingSpacesSpec(t);
    }
    r
  }

  /** `Strip` is reached by removing only whitespace, the leading run and
      then a trailing one. */
  lemma StripTrims(s: string)
    ensures Trims(s, LeadingSpaces(s), Strip(s))
  {
    var lead := LeadingSpaces(s);
    var t := s[lead..];
    var r := Strip(s);
    LeadingSpacesSpec(s);
    assert r == t[..|t| - TrailingSpaces(t)];
    assert s[lead..lead + |r|] == r;
    StripTail(s);
  }

  /** What `Strip` leaves after its result is whitespace. */
  lemma StripTail(s: string)
    ensures |Strip(s)| + LeadingSpaces(s) <= |s|
    ensures AllSpace(s[LeadingSpaces(s) + |Strip(s)|..])
  {
    var lead := LeadingSpaces(s);
    var t := s[lead..];
    var trail := TrailingSpaces(t);
    TrailingSpacesSpec(t);
    var tail := s[lead + |t| - trail..];
    assert tail == t[|t| - trail..];
  }

  /** Stripping leaves nothing exactly when `s` is all whitespace. */
  lemma StripEmpty(s: string)
    ensures Strip(s) == [] <==> AllSpace(s)
  {
    StripTrims(s);
    var lead := LeadingSpaces(s);
    if Strip(s) == [] {
      forall i | 0 <= i < |s|
        ensures IsSpace(s[i])
      {
        if i < lead {
          assert s[i] == s[..lead][i];
        } else {
          assert s[i] == s[lead..][i - lead];
        }
      }
    } else {
      assert !IsSpace(s[lead]);
    }
  }

  /** Python's `s.startswith(prefix)`. */
  predicate StartsWith(s: string, prefix: string) {
    |prefix| <= |s| && s[..|prefix|] == prefix
  }

  /** Python's `sub in s` for strings. */
  predicate Contains(s: string, sub: string) {
    exists i :: 0 <= i <= |s| - |sub| && OccursAt(s, sub, i)
  }

  /** `sub` occurs in `s` starting at index `i`. */
  predicate OccursAt(s: string, sub: string, i: int) {
    0 <= i && i + |sub| <= |s| && s[i..i + |sub|] == sub
  }

  /** Python's `s.split(sep)[-1]`: the text after the last `sep`, or all of
      `s` when `sep` does not occur. */
  function AfterLast(s: string, sep: char): (r: string)
    ensures |r| <= |s| && r == s[|s| - |r|..]
    ensures sep !in r
    ensures |r| < |s| ==> s[|s| - |r| - 1] == sep
  {
    if |s| == 0 then s
    else if s[|s| - 1] == sep then []
    else AfterLast(s[..|s| - 1], sep) + [s[|s| - 1]]
  }

  predicate IsDigit(c: char) {
    '0' <= c <= '9'
  }

  predicate AllDigits(s: string) {
    forall i :: 0 <= i < |s| ==> IsDigit(s[i])
  }

  function DigitValue(c: char): nat
    requires IsDigit(c)
  {
    c as int - '0' as int
  }

  function DigitChar(d: nat): (c: char)
    requires d < 10
    ensures IsDigit(c) && DigitValue(c) == d
  {
    ('0' as int + d) as char
  }

  /** The value of a decimal numeral, most significant digit first. */
  function DigitsValue(s: string): nat
    requires AllDigits(s)
  {
    if |s| == 0 then 0 else DigitsValue(s[..|s| - 1]) * 10 + DigitValue(s[|s| - 1])
  }

  /** What `int()` accepts, restricted to the decimal form the reports use:
      an optional sign followed by at least one ASCII digit. */
  predicate IsIntLiteral(s: string) {
    if |s| > 0 && (s[0] == '+' || s[0] == '-') then |s| > 1 && AllDigits(s[1..])
    else |s| > 0 && AllDigits(s)
  }

  /** Python's `int(s)` on an already stripped string: `None` models the
      `ValueError` it raises on anything that is not a numeral. */
  function ParseInt(s: string): (r: Option<int>)
    ensures r.Some? <==> IsIntLiteral(s)
    ensures r.Some? && s[0] != '-' ==> r.value >= 0
  {
    if |s| > 0 && (s[0] == '+' || s[0] == '-') then
      if |s| > 1 && AllDigits(s[1..]) then
        var magnitude: int := DigitsValue(s[1..]);
        Some(if s[0] == '-' then -magnitude else magnitude)
      else None
    else if |s| > 0 && AllDigits(s) then Some(DigitsValue(s))
    else None
  }

  /** Python's `str(n)` for a non-negative integer. */
  function ShowNat(n: nat): (r: string)
    ensures |r| > 0 && AllDigits(r)
  {
    if n < 10 then [DigitChar(n)] else ShowNat(n / 10) + [DigitChar(n % 10)]
  }

  /** `n` written with at least `width` digits, padded with leading zeros,
      as `strftime` writes `%Y`, `%m` and `%d`. */
  function ZeroPad(n: nat, width: nat): (r: string)
    ensures |r| >= width && AllDigits(r)
  {
    var s := ShowNat(n);
    if |s| < width then Zeros(width - |s|) + s else s
  }

  function Zeros(k: nat): (r: string)
    ensures |r| == k && forall i :: 0 <= i < k ==> r[i] == '0'
  {
    if k == 0 then [] else ['0'] + Zeros(k - 1)
  }

  /** Appending a digit multiplies the value by ten and adds the digit. */
  lemma DigitsValueSnoc(s: string, c: char)
    requires AllDigits(s) && IsDigit(c)
    ensures AllDigits(s + [c])
    ensures DigitsValue(s + [c]) == DigitsValue(s) * 10 + DigitValue(c)
  {
    assert (s + [c])[..|s|] == s;
  }

  /** Reading back a printed number gives the number. */
  lemma {:induction false} ShowNatValue(n: nat)
    ensures DigitsValue(ShowNat(n)) == n
  {
    if n >= 10 {
      ShowNatValue(n / 10);
      DigitsValueSnoc(ShowNat(n / 10), DigitChar(n % 10));
    }
  }

  /** `int(str(n)) == n` for every non-negative `n`. */
  lemma ParseShowNat(n: nat)
    ensures ParseInt(ShowNat(n)) == Some(n)
  {
    ShowNatValue(n);
  }

  /** The value `int()` gives a numeral with a sign of `""`, `"+"` or `"-"`
      and any number of leading zeros: the magnitude, negated exactly under
      a minus sign. */
  lemma ParseSignedNumeral(sign: string, k: nat, n: nat)
    requires sign == "" || sign == "+" || sign == "-"
    ensures ParseInt(sign + Zeros(k) + ShowNat(n)) == Some(if sign == "-" then -(n as int) else n as int)
  {
    var digits := Zeros(k) + ShowNat(n);
    PaddedNumeral(k, n);
    assert sign + Zeros(k) + ShowNat(n) == sign + digits;
    ParseSignPrefixed(sign, digits);
  }

  /** An optional sign before a numeral: the value, negated exactly for
      `-`. */
  lemma ParseSignPrefixed(sign: string, digits: string)
    requires sign == "" || sign == "+" || sign == "-"
    requires |digits| > 0 && AllDigits(digits)
    ensures ParseInt(sign + digits) == Some(if sign == "-" then -(DigitsValue(digits) as int) else DigitsValue(digits) as int)
  {
    if sign == "" {
      assert sign + digits == digits;
      assert IsDigit(digits[0]);
    } else {
      ParseWithSign(sign[0], digits);
      assert sign == [sign[0]];
    }
  }

  /** A zero-padded printed number is a numeral with the number's value. */
  lemma PaddedNumeral(k: nat, n: nat)
    ensures |Zeros(k) + ShowNat(n)| > 0 && AllDigits(Zeros(k) + ShowNat(n))
    ensures DigitsValue(Zeros(k) + ShowNat(n)) == n
  {
    ZerosValue(k, ShowNat(n));
    ShowNatValue(n);
  }

  /** A sign character before a numeral negates its value exactly for `-`. */
  lemma ParseWithSign(c: char, digits: string)
    requires c == '+' || c == '-'
    requires |digits| > 0 && AllDigits(digits)
    ensures ParseInt([c] + digits) == Some(if c == '-' then -(DigitsValue(digits) as int) else DigitsValue(digits) as int)
  {
    assert ([c] + digits)[1..] == digits;
  }

  /** Leading zeros do not change the value of a numeral. */
  lemma {:induction false} ZerosValue(k: nat, s: string)
    requires AllDigits(s)
    ensures AllDigits(Zeros(k) + s)
    ensures DigitsValue(Zeros(k) + s) == DigitsValue(s)
  {
    if |s| == 0 {
      ZerosOnlyValue(k);
      assert Zeros(k) + s == Zeros(k);
    } else {
      var init := s[..|s| - 1];
      var last := s[|s| - 1];
      ZerosValue(k, init);
      assert Zeros(k) + s == (Zeros(k) + init) + [last];
      DigitsValueSnoc(Zeros(k) + init, last);
      DigitsValueSnoc(init, last);
      assert init + [last] == s;
    }
  }

  lemma {:induction false} ZerosOnlyValue(k: nat)
    ensures DigitsValue(Zeros(k)) == 0
  {
    if k > 0 {
      ZerosOnlyValue(k - 1);
      assert Zeros(k) == Zeros(k - 1) + ['0'] by {
        ZerosSnoc(k - 1);
      }
      DigitsValueSnoc(Zeros(k - 1), '0');
    }
  }

  lemma {:induction false} ZerosSnoc(k: nat)
    ensures Zeros(k + 1) == Zeros(k) + ['0']
  {
    if k > 0 {
      ZerosSnoc(k - 1);
    }
  }

  /** A zero-padded numeral reads back as the padded number. */
  lemma ZeroPadValue(n: nat, width: nat)
    ensures DigitsValue(ZeroPad(n, width)) == n
  {
    ShowNatValue(n);
    var s := ShowNat(n);
    if |s| < width {
      ZerosValue(width - |s|, s);
      assert ZeroPad(n, width) == Zeros(width - |s|) + s;
    } else {
      assert ZeroPad(n, width) == s;
    }
  }

  /** Numbers below 10^w print with at most w digits. */
  lemma {:induction false} ShowNatLength(n: nat, w: nat)
    requires 1 <= w && n < Pow10(w)
    ensures |ShowNat(n)| <= w
  {
    if n >= 10 {
      assert w > 1;
      ShowNatLength(n / 10, w - 1);
    }
  }

  function Pow10(w: nat): (r: nat)
    ensures r >= 1
  {
    if w == 0 then 1 else 10 * Pow10(w - 1)
  }

  /** A number below 10^w, zero-padded to w digits, is exactly w long. */
  lemma ZeroPadLength(n: nat, w: nat)
    requires 1 <= w && n < Pow10(w)
    ensures |ZeroPad(n, w)| == w
  {
    ShowNatLength(n, w);
  }

  /** Stripping is idempotent. */
  lemma StripIdempotent(s: string)
    ensures Strip(Strip(s)) == Strip(s)
  {
    var r := Strip(s);
    StripUnchanged(r);
  }

  /** A string that neither starts nor ends with whitespace is left as is. */
  lemma StripUnchanged(s: string)
    requires |s| > 0 ==> !IsSpace(s[0]) && !IsSpace(s[|s| - 1])
    ensures Strip(s) == s
  {
  }

  /** Leading whitespace never survives stripping. */
  lemma StripLeadingSpace(c: char, s: string)
    requires IsSpace(c)
    ensures Strip([c] + s) == Strip(s)
  {
    assert ([c] + s)[1..] == s;
  }

  /** The text after the last separator, when the separator is followed by a
      separator-free tail. */
  lemma {:induction false} AfterLastOfJoin(a: string, sep: char, b: string)
    requires sep !in b
    ensures AfterLast(a + [sep] + b, sep) == b
  {
    if |b| > 0 {
      var init := b[..|b| - 1];
      assert (a + [sep] + b)[..|a + [sep] + b| - 1] == a + [sep] + init;
      AfterLastOfJoin(a, sep, init);
      assert init + [b[|b| - 1]] == b;
    }
  }
}
